=== FILE: README.md ===
# Konimex operations dashboard: a Dafny model of its core logic

This project models the logic behind the Konimex dashboard, a Next.js/React
front end for branch-office logistics. Everything the dashboard does is done
in memory or against a mock API. The model is a set of pure functions over
immutable datatypes, one module per part of the program:

- `Schedules`, `ScheduleList`, `ScheduleCalendar`, `DigitalPass`: the
  driver-schedule page. This covers:
  - the status update that stamps departure and arrival times;
  - the filter by driver;
  - the list view's status and text filter, and its Start Trip / End Trip buttons;
  - the calendar's events, detail panel and colours;
  - the digital pass table, pass ids and dialog.
- `MasterData`, `BranchPage`, `RolePage`: the branch and role master-data
  pages. They share one structure:
  - search and status filter;
  - update, create and delete;
  - the page state, with its form open or closed.
- `BranchForm`, `BranchList`: the branch form (validation, upper-casing the
  code, fields kept when Add follows Edit) and the branch table with its two-step delete confirmation.
- `RoleForm`, `RoleList`: the role form (flattening and re-nesting the
  permissions) and the role table with its modal and its own id rule.
- `MockApi`: the mock authentication and branch API:
  - login and its token;
  - the current user from the stored token;
  - logout;
  - a user's branches;
  - a branch by id.
- `Sidebar`, `TopBar`: navigation:
  - active and expanded menu entries;
  - the mobile breakpoint;
  - the active-branch choice from `localStorage`;
  - branch switching and logout.
- `Wrappers`, `Text`, `Seqs`: `Option`/`Result`, JavaScript string behaviour,
  and an order-preserving `filter`. The string behaviour covered is:
  - ASCII `toLowerCase`/`toUpperCase`;
  - `includes`, `startsWith`, `trim` and `split`;
  - decimal `toString` of integers, as JavaScript prints them below 10^21;
  - `parseInt` (with `NaN` as `None`).

The clock (`Date.now()`, `new Date().toISOString()`) and date parsing
(`new Date(text).getTime()`) are parameters. `localStorage` is a
`map<string, string>`. A thrown error is an `Err` value carrying the error's
message.

## Model

| member | source | states |
|---|---|---|
| Schedules.ApplyStatus | src/app/transaction/driver-schedule/page.js:57-68 | the matched schedule takes the new status; departure is stamped with the current time only for Departed and arrival only for Arrived; every other field is kept |
| Schedules.UpdateStatus | src/app/transaction/driver-schedule/page.js:54-73 | same length; schedules with another id are untouched; every schedule with the id keeps its trip data and gets a time stamp exactly when the new status calls for it |
| Schedules.UpdateUnknownIdIsIdentity | src/app/transaction/driver-schedule/page.js:57-68 | an update for an id no schedule carries leaves the list identical |
| Schedules.ArrivedCanBeResetToPending | src/app/transaction/driver-schedule/page.js:54-73 | the update does not check the current status: an arrived trip can be set back to Pending |
| Schedules.RepeatedDepartureOverwrites | src/app/transaction/driver-schedule/page.js:62-64 | a second Departed update overwrites the departure stamp with the later time |
| Schedules.FilterByDriver | src/app/transaction/driver-schedule/page.js:87-90 | with no driver selected (null or 0) the list is unchanged; otherwise it is the ordered subsequence of that driver's trips, each kept as many times as it occurs |
| Schedules.StatusColour | src/components/driver-schedule/DriverScheduleList.js:175 | Arrived is green, Departed is blue, every other status is gray |
| ScheduleList.FilterSchedules | src/components/driver-schedule/DriverScheduleList.js:54-63 | the result is an ordered subsequence of the schedules; a schedule is kept, with its multiplicity, exactly when it passes both the status filter and the case-insensitive search |
| ScheduleList.EmptySearchKeepsAll | src/components/driver-schedule/DriverScheduleList.js:56-61 | with status "all" and an empty query every schedule is shown |
| ScheduleList.FilterSchedulesIdempotent | src/components/driver-schedule/DriverScheduleList.js:54-63 | filtering a filtered list again with the same settings changes nothing |
| ScheduleList.MatchesSearchIffOccurs | src/components/driver-schedule/DriverScheduleList.js:57-61 | a schedule matches exactly when the lower-cased query occurs at some position of one of its four lower-cased text fields |
| ScheduleList.OfferedActionsAreLegalTransitions | src/components/driver-schedule/DriverScheduleList.js:181-199 | the buttons offered are exactly the Pending to Departed and Departed to Arrived transitions; no button for any other status |
| ScheduleList.OfferedAction | src/components/driver-schedule/DriverScheduleList.js:181-199 | a button exactly for Pending and Departed: Start Trip sends Departed, End Trip sends Arrived |
| ScheduleList.ClickRowAction | src/components/driver-schedule/DriverScheduleList.js:186 | without a button the list is kept; otherwise same length, rows with another id untouched, and every row with the pressed row's id takes the button's status |
| ScheduleList.Step | src/components/driver-schedule/DriverScheduleList.js:181-199 | one press on a trip: Pending departs at that time, Departed arrives at that time, any other status is left as it is |
| ScheduleList.StepKeepsStamps | src/components/driver-schedule/DriverScheduleList.js:181-199 | an offered action keeps the time stamps consistent with the status, never overwrites a stamp, and is a legal transition or does nothing |
| ScheduleList.TripLifecycle | src/components/driver-schedule/DriverScheduleList.js:181-199 | from a fresh pending trip, the first press departs at its time, the second arrives at its time, and later presses change nothing |
| ScheduleList.ArrivedIsFinal | src/components/driver-schedule/DriverScheduleList.js:181-199 | an arrived trip has no button, so no sequence of presses changes it |
| ScheduleList.ClickRowIsStep | src/components/driver-schedule/DriverScheduleList.js:186 | with distinct ids, pressing a row's button changes that row by one step and no other row |
| ScheduleList.DuplicateIdsRewriteBothRows | src/components/driver-schedule/DriverScheduleList.js:186 | the button sends the id, not the row: starting one trip also departs an arrived trip with the same id |
| ScheduleCalendar.Events | src/components/driver-schedule/DriverScheduleCalendar.js:73-80 | one event per schedule, in order, titled "order - driver", with parsed pickup and drop times and the schedule as resource |
| ScheduleCalendar.ResourcesOfEvents | src/components/driver-schedule/DriverScheduleCalendar.js:73-80 | the events' resources are exactly the input schedules |
| ScheduleCalendar.SelectEvent | src/components/driver-schedule/DriverScheduleCalendar.js:87-89 | selecting an event puts its schedule in the detail panel |
| ScheduleCalendar.PanelAction | src/components/driver-schedule/DriverScheduleCalendar.js:206-225 | the panel offers the same action as the list row for the selected schedule's status, and nothing without a selection |
| ScheduleCalendar.EventClass | src/components/driver-schedule/DriverScheduleCalendar.js:142-143 | green class for Arrived, blue for Departed, gray otherwise |
| ScheduleCalendar.ChangeViewMode | src/components/driver-schedule/DriverScheduleCalendar.js:106 | a deselection or an empty mode keeps the current view; any other mode is taken |
| ScheduleCalendar.ClickPanelAction | src/components/driver-schedule/DriverScheduleCalendar.js:206-225 | as written: with a button shown, the list becomes the page's update of the selected id to the button's status; without one the list is kept; either way the selected schedule stays as it was |
| ScheduleCalendar.StalePanelRestampsDeparture | src/components/driver-schedule/DriverScheduleCalendar.js:206-214 | after Start Trip the panel still offers Start Trip, and a second press re-stamps the departure with the later time |
| ScheduleCalendar.FindById | src/components/driver-schedule/DriverScheduleCalendar.js:206-225 | part of the corrected panel, which re-reads its selection from the list: the first schedule with the id (no earlier schedule has it), or none exactly when no schedule has it |
| ScheduleCalendar.FindByIdDistinct | src/components/driver-schedule/DriverScheduleCalendar.js:206-225 | part of the corrected panel: with distinct ids, re-reading a schedule by its id finds that schedule |
| ScheduleCalendar.ClickPanelActionRefreshed | src/components/driver-schedule/DriverScheduleCalendar.js:206-225 | corrected panel: with a button shown, the list gets the same update as the panel as written, and the selection is re-read from the updated list (a schedule of the list with the selected id, none exactly when the id is gone); without a button nothing changes |
| ScheduleCalendar.RefreshedPanelStep | src/components/driver-schedule/DriverScheduleCalendar.js:206-225 | one press of the corrected panel steps the selected row, re-selects it, and keeps ids distinct |
| ScheduleCalendar.RefreshedPanelRunsLifecycle | src/components/driver-schedule/DriverScheduleCalendar.js:206-225 | any sequence of presses on the corrected panel runs the trip life cycle on the selected row and nothing else |
| ScheduleCalendar.RefreshedPanelStampsOnce | src/components/driver-schedule/DriverScheduleCalendar.js:206-225 | corrected panel: a pending trip departs at the first press, arrives at the second, keeps both stamps afterwards, and offers no further button |
| DigitalPass.PassIdOf | src/components/driver-schedule/DigitalPass.js:49-51 | the pass id is "PASS-", the order number and "-", followed by the printed pickup epoch |
| DigitalPass.PassId | src/components/driver-schedule/DigitalPass.js:49-51 | a schedule's pass id is "PASS-", its order number and "-", followed by the printed epoch of its pickup time |
| DigitalPass.PassIdIgnoresScheduleId | src/components/driver-schedule/DigitalPass.js:49-51 | two schedules with the same order number and pickup time share a pass id, whatever their ids |
| DigitalPass.PassIdSeparatesEpochs | src/components/driver-schedule/DigitalPass.js:49-51 | for one order number, different pickup epochs, or an epoch against NaN, give different pass ids |
| DigitalPass.PassIdExample | src/components/driver-schedule/DigitalPass.js:49-51 | order ORD001 picked up at epoch 1745136000000 has pass id PASS-ORD001-1745136000000 |
| DigitalPass.Rows | src/components/driver-schedule/DigitalPass.js:86-117 | one row per schedule, in order, carrying its pass id, driver and status; View Pass is enabled exactly while the trip has not arrived |
| DigitalPass.ClickViewPass | src/components/driver-schedule/DigitalPass.js:57-59 | an enabled View Pass opens the dialog on that schedule; a disabled one changes nothing |
| DigitalPass.ClosePass | src/components/driver-schedule/DigitalPass.js:64-66 | closing leaves no pass selected, so the dialog is closed |
| DigitalPass.DialogShowsRowPassId | src/components/driver-schedule/DigitalPass.js:123-139 | the dialog opened from a row shows the same pass id as that row |
| MasterData.FilterRecords | src/app/master/branch/page.js:71-82 | an ordered subsequence; a record is kept, with its multiplicity, exactly when its name or code contains the query ignoring case and its status matches the filter |
| MasterData.StatusFiltersPartition | src/app/master/branch/page.js:71-82 | the Active and Inactive results together are, as a multiset, exactly the All result |
| MasterData.UnknownStatusMatchesNothing | src/app/master/branch/page.js:75-79 | a status filter other than all, active or inactive shows nothing |
| MasterData.EmptyQueryShowsAll | src/app/master/branch/page.js:71-82 | an empty query with "all" shows every record |
| MasterData.Merge | src/app/master/branch/page.js:32-37 | the merged record has the form's code, name and status and keeps its id |
| MasterData.Update | src/app/master/branch/page.js:32-37 | same length; records with another id are untouched; every record with the selected id is replaced by the form data under that id |
| MasterData.UpdateKeepsIds | src/app/master/branch/page.js:32-37 | an update never changes the id column |
| MasterData.Create | src/app/master/branch/page.js:38-44 | as written: the old list followed by one record with the form data and id length + 1 |
| MasterData.Delete | src/app/master/branch/page.js:57-61 | an ordered subsequence holding, with their multiplicity, exactly the records whose id differs |
| MasterData.DeleteAbsentIsIdentity | src/app/master/branch/page.js:57-61 | deleting an id that no record carries leaves the list identical |
| MasterData.DeleteDense | src/app/master/branch/page.js:57-61 | on a list numbered 1..n, deleting id k removes exactly the k-th record |
| MasterData.DeleteThenCreateRepeatsId | src/app/master/branch/page.js:38-61 | as written: on a list numbered 1..n, deleting any record but the last and then creating one gives two records with id n |
| MasterData.CreateKeepsDense | src/app/master/branch/page.js:38-44 | without deletes, the length rule keeps the list numbered 1..n, so ids stay distinct |
| MasterData.MaxId | src/app/master/branch/page.js:38-44 | at least 0 and bounding every id; either 0 or the id of some record, so on a list with a positive id it is the largest id |
| MasterData.CreateFresh | src/app/master/branch/page.js:38-44 | corrected create: the old list followed by the form data under a positive id that no existing record carries |
| MasterData.MaxIdDense | src/app/master/branch/page.js:38-44 | on a list numbered 1..n the largest id is n |
| MasterData.CreateFreshAgreesWhenDense | src/app/master/branch/page.js:38-44 | on a list numbered 1..n the corrected create gives the same result as the one as written |
| MasterData.InitialPage | src/app/master/branch/page.js:20-24 | the page opens on the seed with the form closed, nothing selected, an empty query and status "all" |
| MasterData.OnEdit | src/app/master/branch/page.js:90-93 | Edit opens the form on that record and keeps the list, the search query and the status filter |
| MasterData.OnAdd | src/app/master/branch/page.js:95-98 | Add clears the selection and opens the form; the list, the search query and the status filter are kept |
| MasterData.OnCancel | src/app/master/branch/page.js:109-112 | Cancel closes the form and clears the selection; the list, the search query and the status filter are kept |
| MasterData.HandleSave | src/app/master/branch/page.js:30-51 | as written: update when a record is selected, create otherwise; then close the form and clear the selection, keeping the filters |
| MasterData.HandleSaveFresh | src/app/master/branch/page.js:30-51 | the save handler with the corrected create: update when a record is selected, otherwise append under an unused id; then close the form and clear the selection, keeping the search query and the status filter |
| MasterData.HandleDelete | src/app/master/branch/page.js:57-61 | the list loses the id's records; the form's state, the search query and the status filter are kept |
| MasterData.DeleteKeepsDistinctIds | src/app/master/branch/page.js:57-61 | deleting keeps ids distinct |
| MasterData.SaveFreshKeepsDistinctIds | src/app/master/branch/page.js:30-51 | with the corrected create, every save keeps ids distinct |
| BranchPage.SeedSearchExample | src/app/master/branch/page.js:8-12 | on the seed, "jak" among active branches finds Jakarta only |
| BranchPage.SeedIsDense | src/app/master/branch/page.js:8-12 | the seed branches are numbered 1, 2, 3 |
| BranchPage.SeedIsWellFormed | src/app/master/branch/page.js:8-12 | the seed branches have distinct ids and codes that are distinct ignoring case |
| BranchPage.SeedIdCollision | src/app/master/branch/page.js:38-61 | on the seed, deleting Jakarta and adding a branch leaves two branches with id 3 |
| BranchPage.SaveKeepsInvariant | src/components/master/branch/BranchForm.js:44-93 | saving what the form accepted, with the corrected create, keeps ids distinct and codes distinct ignoring case |
| BranchPage.DeleteKeepsInvariant | src/app/master/branch/page.js:57-61 | deleting keeps ids distinct and codes distinct ignoring case |
| RolePage.SeedInactiveExample | src/app/master/role/page.js:71-82 | on the seed, "usr" among inactive roles finds User through its code |
| RolePage.SeedActiveExample | src/app/master/role/page.js:71-82 | on the seed, "usr" among active roles finds nothing |
| RolePage.SeedIsDense | src/app/master/role/page.js:8-12 | the seed roles are numbered 1, 2, 3 |
| RolePage.SeedIdCollision | src/app/master/role/page.js:38-61 | deleting role 1 or 2 and adding one leaves two roles with id 3 |
| BranchForm.InitialForm | src/components/master/branch/BranchForm.js:30-37 | the form starts from the edited branch's fields, or empty and active |
| BranchForm.BranchChanged | src/components/master/branch/BranchForm.js:30-38 | on a mounted form, a new branch prop replaces the fields with that branch's; a change to null leaves them as they were |
| BranchForm.EditThenAddKeepsFields | src/app/master/branch/page.js:90-114 | Edit then Add with the form open shows the edited branch's fields in the Add form, and saving them as a new branch fails the uniqueness check |
| BranchForm.UpperKeepsFormat | src/components/master/branch/BranchForm.js:83-86 | upper-casing a well-formed code keeps it well-formed and leaves no lower-case letter |
| BranchForm.FindClash | src/components/master/branch/BranchForm.js:61-67 | a clashing branch is one in the list; none is found exactly when no other branch has the code ignoring case |
| BranchForm.Validate | src/components/master/branch/BranchForm.js:44-71 | name error exactly for a blank name; the code error is "not unique" exactly on a clash, else "format" exactly for a non-empty code outside 1-5 letters and digits, else "required" exactly for an empty code |
| BranchForm.Submit | src/components/master/branch/BranchForm.js:77-93 | data is saved exactly when validation shows no message; the saved code equals the typed one ignoring case, is well-formed and has no lower-case letter |
| BranchForm.SavedCodeIsUnique | src/components/master/branch/BranchForm.js:61-67 | a saved code never equals another branch's code ignoring case |
| BranchForm.EditUnchangedNeverClashes | src/components/master/branch/BranchForm.js:61-67 | with distinct codes, re-saving a branch unchanged never trips the uniqueness check |
| BranchList.StatusLabel | src/components/master/branch/BranchList.js:95 | "Active" exactly for an active branch, "Inactive" otherwise |
| BranchList.Rows | src/components/master/branch/BranchList.js:80-96 | an empty list renders the one "no branches" row; otherwise one row per branch in order, confirming exactly when its id is marked |
| BranchList.RowsListEveryBranch | src/components/master/branch/BranchList.js:87-96 | the rendered rows are branch rows whose ids are exactly the input ids in order |
| BranchList.Press | src/components/master/branch/BranchList.js:107-134 | Delete marks the id; Confirm and Cancel clear the mark; only Confirm passes an id to the page, and it passes its own row's id |
| BranchList.DeleteOnlyAfterConfirm | src/components/master/branch/BranchList.js:107-134 | a delete reaches the page only from Confirm on the marked row, with the marked id |
| BranchList.AtMostOneConfirming | src/components/master/branch/BranchList.js:39 | with distinct ids at most one row is in its confirming state |
| BranchList.DuplicateIdsConfirmTogether | src/components/master/branch/BranchList.js:128-134 | the mark is an id: two rows with the same id are put in the confirming state together |
| RoleForm.InitialFields | src/components/master/role/RoleForm.js:20-30 | editing fills name, status and the three order permissions through optional chaining; a new form has the defaults |
| RoleForm.Nest | src/components/master/role/RoleForm.js:40-50 | the nested values carry the name, status and the three flags under permissions.orders and nothing else |
| RoleForm.Submit | src/components/master/role/RoleForm.js:36-60 | values are submitted exactly when a name is given, and then they are the nested fields; loading goes on and back off; an error thrown by the submit handler is caught and logged; a missing name gives the required message |
| RoleForm.DefaultsNeedAName | src/components/master/role/RoleForm.js:67-79 | a fresh form cannot be submitted before a name is typed |
| RoleForm.FlattenNestRoundTrip | src/components/master/role/RoleForm.js:20-50 | submitting an edited role unchanged gives back its name, status and three order flags |
| RoleForm.RoundTripDropsOtherPermissions | src/components/master/role/RoleForm.js:40-50 | for a role with order permissions, the round trip loses exactly the other permission entries |
| RoleForm.EmptyNameRejected | src/components/master/role/RoleForm.js:79 | an edited role with an empty name is refused with the required message |
| RoleList.Max | src/components/master/role/RoleList.js:129 | Math.max of two keys is one of them, bounds both, and is minus infinity only when both are |
| RoleList.MaxId | src/components/master/role/RoleList.js:129 | minus infinity exactly when no id is finite; otherwise an id of the list bounding every finite id |
| RoleList.NextId | src/components/master/role/RoleList.js:129 | as written: minus infinity exactly when no id is finite; otherwise above every finite id |
| RoleList.NextIdFreshWithFiniteId | src/components/master/role/RoleList.js:125-131 | as written, the new id is fresh whenever some existing id is finite |
| RoleList.NextIdWithoutFiniteIds | src/components/master/role/RoleList.js:125-131 | as written, a list with no finite id, such as the empty list, gives the id minus infinity |
| RoleList.NextIdFresh | src/components/master/role/RoleList.js:125-131 | corrected rule: a finite id that no role carries |
| RoleList.NextIdFreshAgrees | src/components/master/role/RoleList.js:125-131 | where some id is finite the corrected rule gives the id as written |
| RoleList.Visible | src/components/master/role/RoleList.js:54-56 | the shown roles are an ordered subsequence holding, with their multiplicity, exactly the roles whose name contains the search text ignoring case |
| RoleList.EmptySearchShowsAll | src/components/master/role/RoleList.js:54-56 | an empty search shows every role |
| RoleList.HandleEdit | src/components/master/role/RoleList.js:99-102 | Edit opens the modal on that role and keeps the data and the search text |
| RoleList.HandleAddNew | src/components/master/role/RoleList.js:112-115 | Add opens the modal with no role and keeps the data and the search text |
| RoleList.CloseModal | src/components/master/role/RoleList.js:170-177 | closing the modal keeps the data, the edited role and the search text |
| RoleList.HandleDelete | src/components/master/role/RoleList.js:105-109 | an ordered subsequence holding, with their multiplicity, exactly the roles with another id; the modal and the search text are untouched |
| RoleList.DeleteAbsentIsIdentity | src/components/master/role/RoleList.js:105-109 | deleting a role whose id no role carries leaves the state identical |
| RoleList.Replace | src/components/master/role/RoleList.js:122 | the submitted values under the old id, with no other field of the old role |
| RoleList.UpdateRoles | src/components/master/role/RoleList.js:119-124 | same length; roles with another id are untouched; the edited id's roles are replaced |
| RoleList.AppendRole | src/components/master/role/RoleList.js:125-131 | as written: the old list followed by the values under the Math.max id plus one |
| RoleList.AppendRoleFresh | src/components/master/role/RoleList.js:125-131 | corrected: the old list followed by the values under an id no role carries |
| RoleList.HandleFormSubmit | src/components/master/role/RoleList.js:117-137 | update when editing, append under Math.max + 1 otherwise, then close the modal; the search text is kept |
| RoleList.HandleFormSubmitFresh | src/components/master/role/RoleList.js:117-137 | the submit handler with the corrected id rule: update when editing, append under an unused id otherwise, then close the modal; the search text is kept |
| RoleList.EditDropsExtraFields | src/components/master/role/RoleList.js:121-123 | saving an edited role keeps its id and the submitted values but drops every other field it had |
| RoleList.EmptyListRepeatsId | src/components/master/role/RoleList.js:125-131 | as written: two roles added to an empty list both get the id minus infinity |
| RoleList.SubmitFreshKeepsDistinctIds | src/components/master/role/RoleList.js:117-137 | with the corrected rule every submit keeps ids distinct |
| RoleList.SeedDeleteThenAdd | src/components/master/role/RoleList.js:105-131 | on the seed, deleting Admin and adding a role gives it id 3 |
| MockApi.Public | src/utils/api.js:83-90 | the user as returned: every field but the password |
| MockApi.FindUser | src/utils/api.js:74-76 | the first user satisfying the test, or none exactly when no user does |
| MockApi.Login | src/utils/api.js:69-97 | succeeds exactly when some user has that email and password, returning the first such user without password and a token for its id and the time; otherwise the invalid-credentials error |
| MockApi.TokenUserId | src/utils/api.js:115 | a token with fewer than three dash-separated fields reads as NaN |
| MockApi.Token | src/utils/api.js:80 | the token starts with "dummy-token-" and, for a non-negative id, its third dash-separated field is the id's decimal text |
| MockApi.TokenRoundTrip | src/utils/api.js:80-115 | the id read back from a login token is the id written into it, for every non-negative id (JavaScript itself only for ids below 10^21) |
| MockApi.NegativeIdTokenUnreadable | src/utils/api.js:80-115 | a negative id's minus sign splits the token so that its id reads as NaN |
| MockApi.GetCurrentUser | src/utils/api.js:103-131 | "not authenticated" exactly when the token is missing or empty; "user not found" exactly when the token is present but its id is NaN or names no user; on success the first user with the token's id, without password |
| MockApi.Logout | src/utils/api.js:136-144 | the token is removed and every other stored key keeps its value |
| MockApi.LogoutThenNotAuthenticated | src/utils/api.js:103-144 | after logout the current user is "not authenticated" |
| MockApi.LoginThenCurrentUser | src/utils/api.js:69-131 | with distinct non-negative ids, storing the login token makes the current user the one who logged in (JavaScript itself only for ids below 10^21) |
| MockApi.FindUserByUniqueId | src/utils/api.js:118 | with distinct ids, looking up a user's id finds that user |
| MockApi.SeedLogin | src/utils/api.js:33-50 | both seed users can log in with their own passwords |
| MockApi.SeedWrongPassword | src/utils/api.js:33-95 | a seed email with another user's password is refused |
| MockApi.GetBranchesByUserId | src/utils/api.js:167-184 | "user not found" exactly when no user has the id; otherwise an ordered subsequence holding, with their multiplicity, exactly the branches whose id is in the list of the first user with that id |
| MockApi.FindBranch | src/utils/api.js:196 | the first branch with the id (no earlier branch has it), or none exactly when no branch has it |
| MockApi.GetBranchById | src/utils/api.js:191-203 | "branch not found" exactly when no branch has the id; otherwise the first branch with that id |
| MockApi.UserBranchesResolve | src/utils/api.js:167-203 | every branch a user is given can be fetched by its id |
| MockApi.SeedUserIdsDistinct | src/utils/api.js:33-50 | the seed users have distinct ids |
| MockApi.SeedAdminBranches | src/utils/api.js:33-57 | the administrator sees all three seed branches |
| MockApi.SeedUserBranches | src/utils/api.js:33-57 | the second seed user sees Jakarta only |
| MockApi.SeedUnknownUser | src/utils/api.js:167-184 | an id no seed user has is reported as "user not found" |
| Sidebar.PathText | src/components/layout/Sidebar.js:75 | a missing path is compared as the text "undefined" |
| Sidebar.ExactPathActive | src/components/layout/Sidebar.js:71 | an entry is active on its own path |
| Sidebar.IsMenuActive | src/components/layout/Sidebar.js:70-76 | active on its own path; otherwise, with sub-items, exactly when a sub-item's path prefixes the current one; without, exactly when its path (or "undefined") prefixes the current one and is not the root |
| Sidebar.GroupActiveIff | src/components/layout/Sidebar.js:72-74 | away from its own path, an entry with sub-items is active exactly when some sub-item path is a prefix of the current path |
| Sidebar.LeafActiveIff | src/components/layout/Sidebar.js:70-76 | an entry without sub-items is active exactly on its own path or when its path, other than "/", is a prefix of the current path |
| Sidebar.RootOnlyOnRoot | src/components/layout/Sidebar.js:75 | the root entry is active only on "/" |
| Sidebar.ReportsActivatesReport | src/components/layout/Sidebar.js:119-124 | the prefix test ignores segments: "/reports" activates Laporan, and "/master/branches" activates Master Data without highlighting Cabang |
| Sidebar.ToggleMenu | src/components/layout/Sidebar.js:57-62 | the entry's expansion flips and every other entry keeps its value |
| Sidebar.ToggleTwice | src/components/layout/Sidebar.js:57-62 | toggling the same entry twice restores every entry's expansion |
| Sidebar.AutoExpand | src/components/layout/Sidebar.js:137-143 | every entry with a sub-item prefixing the path is expanded; nothing expanded is collapsed; every changed key was set to expanded by such an entry |
| Sidebar.AutoExpandIdempotent | src/components/layout/Sidebar.js:137-143 | auto-expanding twice for one path gives the same expansion as once |
| Sidebar.GroupExpandsIffActive | src/components/layout/Sidebar.js:70-76 | for a group without a path, being auto-expanded and being highlighted coincide |
| Sidebar.DriverScheduleExpandsTransaction | src/components/layout/Sidebar.js:79-143 | the driver-schedule page expands Transaksi |
| Sidebar.Resize | src/components/layout/Sidebar.js:26-44 | mobile exactly below 768 pixels, and then closed; open otherwise |
| Sidebar.ToggleSidebar | src/components/layout/Sidebar.js:49-51 | the toggle flips open and keeps the layout |
| Sidebar.OverlayAfterResize | src/components/layout/Sidebar.js:156-161 | no overlay after a resize; on mobile opening shows it, and pressing it closes the sidebar again |
| TopBar.GetItem | src/components/layout/TopBar.js:37 | a stored value exactly when the key is present |
| TopBar.StoredBranch | src/components/layout/TopBar.js:38-41 | a branch of the list whose id equals the parsed non-empty stored value; none exactly when there is no value, it is empty or NaN, or no branch has that id |
| TopBar.SelectActiveBranch | src/components/layout/TopBar.js:36-54 | the stored branch when there is one, writing nothing; otherwise the first branch, with its id written back; with no branches nothing is active or written |
| TopBar.Store | src/components/layout/TopBar.js:45-50 | the written id lands under activeBranchId and every other key is kept |
| TopBar.StoredIdSelectsItsBranch | src/components/layout/TopBar.js:37-45 | with distinct branch ids, a stored branch id selects that branch and writes nothing |
| TopBar.SelectionStableOnReload | src/components/layout/TopBar.js:36-51 | with distinct ids, after a selection a reload picks the same branch and writes nothing |
| TopBar.FetchUserData | src/components/layout/TopBar.js:26-55 | no user exactly when the current-user request fails, and then nothing changes; otherwise the user, their branches and the selected active branch, with storage updated |
| TopBar.HandleBranchChange | src/components/layout/TopBar.js:80-86 | the branch becomes active, its id is stored so that it parses back, the dropdown closes, and nothing else changes |
| TopBar.ChangeBranchSurvivesReload | src/components/layout/TopBar.js:80-86 | with distinct ids, the branch picked is still active after the reload |
| TopBar.HandleLogout | src/components/layout/TopBar.js:91-100 | token and active branch id are gone; every other key is kept |
| TopBar.LogoutThenNothingShown | src/components/layout/TopBar.js:91-103 | after logout the next mount shows no user |
| TopBar.ToggleDropdown | src/components/layout/TopBar.js:131 | the dropdown flips and nothing else changes |
| TopBar.ClickOutside | src/components/layout/TopBar.js:63-74 | a click outside closes the dropdown; a click inside changes nothing |
| TopBar.SeedUserHasNoDropdown | src/components/layout/TopBar.js:26-55 | the second seed user is shown with Jakarta active and no Change Branch dropdown |
| Text.ParseIntToString | src/components/layout/TopBar.js:39-45 | parseInt reads back every integer printed as plain decimal text, which is how toString prints integers below 10^21 |
| Text.JoinSplit | src/utils/api.js:115 | splitting on a character and joining on it again gives back the string |
| Text.Trim | src/components/master/branch/BranchForm.js:47-53 | the trimmed string is empty exactly when every character is white space |
| Text.IntToString | src/utils/api.js:80 | at least one character; a leading minus sign exactly for negative numbers, and digits everywhere else: plain decimal text, as JavaScript prints integers below 10^21 |
| Text.ParseIntFirstChar | src/utils/api.js:115 | parseInt, by the first character after the white space: NaN for an empty or blank string and for one starting with any other character than a digit or a sign; a number that is not negative when it starts with a digit other than a `0x` prefix; a negative result only after a minus sign |
| Text.Split | src/utils/api.js:115 | at least one part, no part holds the separator, and a string without the separator is its only part |

## Left out

- Rendering is not modelled: React components and hooks, and the Material UI, Ant Design, react-big-calendar and Tailwind widgets. The model keeps only the state and the values the views compute.
- Timing and navigation are not modelled: the `setTimeout` delays, `router.push`, `window.location.reload` and the resize listener registration. They have no effect on the state modelled.
- The axios client and its interceptor (src/utils/api.js:13-30) are not modelled: no modelled operation calls them.
- `getAllBranches` (src/utils/api.js:155-160) has no member: it returns the fixed branch list unchanged.
- Date formatting (`formatDateTime`, `toLocaleString`) is not modelled. It only affects display text.
- Date parsing is a parameter (`dateOf`, `epochOf`), because it depends on the runtime's time zone.
- Case mapping is ASCII only. Unicode case folding is outside the model.
- The role page's `RoleForm` import and the role page's own form wiring are not modelled: the page state is shared with the branch page in `MasterData`.
- The role list's Ant Design modal keeps `RoleForm` mounted between openings. The field values it retains from one opening to the next are not modelled.
- BranchForm's `isSubmitting` flag is not modelled: it only disables inputs while the save is pending.
- `AppLayout`, the dashboard, the branch-selection page and `Button` are not part of this model.
- TopBar.FetchUserData: treats the branch request as unable to fail, because it always asks for the id of a user the current-user request has just found.
- Numbers: JavaScript numbers are modelled as unbounded integers. Two things are not modelled: printing in exponent form from 10^21 on (`${1e21}` is "1e+21", which `parseInt` reads as 1), and the loss of precision above 2^53. No id or epoch the program produces reaches either bound: the ids come from the seeds, `length + 1` and `Math.max(...) + 1`, and a `getTime()` value is at most 8.64e15.
- Text.IntToString: states plain decimal text for every integer. JavaScript prints that way only below 10^21; see "Numbers".
- Text.ParseIntToString: holds for every integer in the model. In JavaScript it holds only below 10^21, because exponent-form text reads back as its leading digits.
- MockApi.TokenRoundTrip: holds for every non-negative id in the model. In JavaScript only ids below 10^21 survive the token; see "Numbers".
- MockApi.LoginThenCurrentUser: the same bound as MockApi.TokenRoundTrip applies to the user ids.
- Schedules.UpdateStatus: reads the clock once for the whole update, while src/app/transaction/driver-schedule/page.js:59 reads it once per matched row, so rows sharing an id may get different stamps in the source; every matched row gets the same `now` here.
- Schedules.StatusColour: states the colour class only, not the Tailwind class strings of the badge.

## Findings

| source | as written | input that shows it | evidently intended | confidence | as-written member | corrected member |
|---|---|---|---|---|---|---|
| src/components/driver-schedule/DriverScheduleCalendar.js:206-225 | the detail panel keeps the schedule it was opened with, so after Start Trip it still shows Pending and offers Start Trip | a pending trip selected in the calendar, with Start Trip pressed twice | the panel follows the list, so a trip departs once and then offers End Trip | not executed | ScheduleCalendar.StalePanelRestampsDeparture | ScheduleCalendar.RefreshedPanelStampsOnce |
| src/app/master/branch/page.js:38-61 | a new record gets id `length + 1`, which repeats an id after a delete; src/app/master/role/page.js:38-61 does the same | the seed branches with Jakarta (id 1) deleted, then a branch added: it gets id 3, which Bandung already has | a new record gets an id no record carries | not executed | MasterData.DeleteThenCreateRepeatsId | MasterData.SaveFreshKeepsDistinctIds |
| src/components/master/role/RoleList.js:125-131 | the new id is `Math.max(...ids) + 1`, which is minus infinity for an empty list | every role deleted, then two roles added: both get id minus infinity | the first role of an empty list gets id 1 and later roles fresh ids | not executed | RoleList.EmptyListRepeatsId | RoleList.SubmitFreshKeepsDistinctIds |

=== FILE: branch_form.dfy ===
/**
 The branch form: its initial values, the validation that produces one message
 per field, and the submit that hands the form to the page with the code
 upper-cased.

 Validation runs its checks in order and a later failing check on the code
 replaces the message of an earlier one: required, then format, then
 uniqueness.
 */
module BranchForm {
  import opened Wrappers
  import opened Text
  import opened MasterData

  const CodeRequired: string := "Branch code is required"
  const NameRequired: string := "Branch name is required"
  const CodeFormat: string := "Code must be 1-5 alphanumeric characters"
  const CodeNotUnique: string := "Branch code must be unique"

  /** One optional message per field; an absent key is `None`. */
  datatype FormErrors = FormErrors(code: Option<string>, name: Option<string>)

  /** `Object.keys(errors).length === 0`. */
  predicate NoErrors(e: FormErrors) {
    e.code.None? && e.name.None?
  }

  /** The values the form starts with: the record being edited, or an empty active branch. */
  function InitialForm(editing: Option<MasterRecord>): (f: FormData)
    ensures editing.None? ==> f == FormData("", "", true)
    ensures editing.Some? ==> f.code == editing.value.code && f.name == editing.value.name && f.status == editing.value.status
  {
    if editing.None? then FormData("", "", true)
    else FormData(editing.value.code, editing.value.name, editing.value.status)
  }

  /**
   The effect that runs when the `branch` prop changes on a mounted form. The
   page keeps the form mounted while it is shown, so pressing Add with the form
   open changes `branch` to `null`: the effect copies nothing and the fields
   keep their values.
   */
  function BranchChanged(current: FormData, branch: Option<MasterRecord>): (f: FormData)
    ensures branch.Some? ==> f == InitialForm(branch)
    ensures branch.None? ==> f == current
  {
    if branch.Some? then InitialForm(branch) else current
  }

  /**
   Edit and then Add without closing the form: the Add form still shows the
   edited branch, and saving it as a new branch fails the uniqueness check on
   that branch's own code.
   */
  lemma EditThenAddKeepsFields(records: seq<MasterRecord>, i: int)
    requires 0 <= i < |records|
    ensures var f := BranchChanged(BranchChanged(InitialForm(None), Some(records[i])), None);
      && f == FormData(records[i].code, records[i].name, records[i].status)
      && Validate(f, records, None).code == Some(CodeNotUnique)
      && Submit(f, records, None).saved.None?
  {
    var f := BranchChanged(BranchChanged(InitialForm(None), Some(records[i])), None);
    assert Clashes(records[i], f.code, None);
  }

  /** `!value.trim()`. */
  predicate IsBlank(s: string) {
    Trim(s) == ""
  }

  /** `/^[A-Za-z0-9]{1,5}$/`. */
  predicate ValidCodeFormat(code: string) {
    1 <= |code| <= 5 && forall i :: 0 <= i < |code| ==> IsAlnum(code[i])
  }

  /** Upper-casing a well-formed code keeps it well-formed and leaves no lower-case letter. */
  lemma UpperKeepsFormat(code: string)
    requires ValidCodeFormat(code)
    ensures ValidCodeFormat(ToUpper(code))
    ensures forall i :: 0 <= i < |ToUpper(code)| ==> !IsAsciiLower(ToUpper(code)[i])
  {
    var u := ToUpper(code);
    forall i | 0 <= i < |u|
      ensures IsAlnum(u[i]) && !IsAsciiLower(u[i])
    {
      assert u[i] == UpperChar(code[i]);
    }
  }

  /** Another record already holds this code, ignoring case; when editing, the edited id does not count. */
  predicate Clashes(b: MasterRecord, code: string, editing: Option<MasterRecord>) {
    ToLower(b.code) == ToLower(code) && (editing.None? || b.id != editing.value.id)
  }

  /** `branches.find(...)` for the uniqueness check. */
  function FindClash(records: seq<MasterRecord>, code: string, editing: Option<MasterRecord>): (r: Option<MasterRecord>)
    ensures r.Some? ==> r.value in records && Clashes(r.value, code, editing)
    ensures r.None? <==> forall i :: 0 <= i < |records| ==> !Clashes(records[i], code, editing)
    decreases |records|
  {
    if |records| == 0 then None
    else if Clashes(records[0], code, editing) then Some(records[0])
    else FindClash(records[1..], code, editing)
  }

  /** `validateForm` without the state update: the messages it would show. */
  function Validate(form: FormData, records: seq<MasterRecord>, editing: Option<MasterRecord>): (e: FormErrors)
    ensures e.name.Some? <==> IsBlank(form.name)
    ensures e.name.Some? ==> e.name.value == NameRequired
    ensures e.code == Some(CodeNotUnique) <==> FindClash(records, form.code, editing).Some?
    ensures e.code == Some(CodeFormat) <==>
      FindClash(records, form.code, editing).None? && form.code != "" && !ValidCodeFormat(form.code)
    ensures e.code == Some(CodeRequired) <==> FindClash(records, form.code, editing).None? && form.code == ""
    ensures e.code.None? <==> FindClash(records, form.code, editing).None? && ValidCodeFormat(form.code)
  {
    var required := if IsBlank(form.code) then Some(CodeRequired) else None;
    var formatted := if form.code != "" && !ValidCodeFormat(form.code) then Some(CodeFormat) else required;
    var code := if FindClash(records, form.code, editing).Some? then Some(CodeNotUnique) else formatted;
    assert ValidCodeFormat(form.code) ==> !IsBlank(form.code) by {
      if ValidCodeFormat(form.code) {
        assert !IsSpace(form.code[0]);
      }
    }
    FormErrors(code, if IsBlank(form.name) then Some(NameRequired) else None)
  }

  /** The outcome of pressing Save: the messages shown and, when they are empty, the data passed to `onSave`. */
  datatype SubmitOutcome = SubmitOutcome(errors: FormErrors, saved: Option<FormData>)

  /** `handleSubmit`: validate, and on success save the form with its code upper-cased. */
  function Submit(form: FormData, records: seq<MasterRecord>, editing: Option<MasterRecord>): (o: SubmitOutcome)
    ensures o.errors == Validate(form, records, editing)
    ensures o.saved.Some? <==> NoErrors(o.errors)
    ensures o.saved.Some? ==>
      && ToLower(o.saved.value.code) == ToLower(form.code)
      && ValidCodeFormat(o.saved.value.code)
      && (forall i :: 0 <= i < |o.saved.value.code| ==> !IsAsciiLower(o.saved.value.code[i]))
      && o.saved.value.name == form.name && o.saved.value.status == form.status
  {
    var e := Validate(form, records, editing);
    if NoErrors(e) then
      LowerOfUpper(form.code);
      UpperKeepsFormat(form.code);
      SubmitOutcome(e, Some(form.(code := ToUpper(form.code))))
    else SubmitOutcome(e, None)
  }

  /** A saved code never clashes with another record's code, whatever its case. */
  lemma SavedCodeIsUnique(form: FormData, records: seq<MasterRecord>, editing: Option<MasterRecord>, i: int)
    requires Submit(form, records, editing).saved.Some?
    requires 0 <= i < |records| && (editing.None? || records[i].id != editing.value.id)
    ensures ToLower(records[i].code) != ToLower(Submit(form, records, editing).saved.value.code)
  {
  }

  /**
   Reopening a record on a list with unique codes and saving it untouched never
   reports a duplicate: the code is rejected only for its format.
   */
  lemma {:induction false} EditUnchangedNeverClashes(records: seq<MasterRecord>, i: int)
    requires DistinctCodes(records) && 0 <= i < |records|
    ensures var form := InitialForm(Some(records[i]));
      Validate(form, records, Some(records[i])).code.None? <==> ValidCodeFormat(records[i].code)
  {
    var form := InitialForm(Some(records[i]));
    forall j | 0 <= j < |records|
      ensures !Clashes(records[j], form.code, Some(records[i]))
    {
      if j < i {
        assert ToLower(records[j].code) != ToLower(records[i].code);
      } else if j > i {
        assert ToLower(records[i].code) != ToLower(records[j].code);
      }
    }
  }
}

=== FILE: branch_list.dfy ===
/**
 The branch table: one row per branch (or a single "No branches found" row),
 the status label, and the two-step delete. Pressing Delete only marks a row;
 the marked row shows Confirm and Cancel instead, and only Confirm reports the
 id to the page.
 */
module BranchList {
  import opened Wrappers
  import opened MasterData

  const EmptyMessage: string := "No branches found"

  /** A rendered table row. */
  datatype ListRow =
    | EmptyRow(message: string)
    | BranchRow(id: int, code: string, name: string, statusLabel: string, confirming: bool)

  /** The label in the status column. */
  function StatusLabel(status: bool): (l: string)
    ensures l == "Active" <==> status
    ensures !status ==> l == "Inactive"
  {
    if status then "Active" else "Inactive"
  }

  /** The table body for the branches received and the marked id (`deleteConfirmId`). */
  function Rows(branches: seq<MasterRecord>, mark: Option<int>): (rows: seq<ListRow>)
    ensures |branches| == 0 ==> rows == [EmptyRow(EmptyMessage)]
    ensures |branches| > 0 ==> |rows| == |branches| && forall i :: 0 <= i < |rows| ==>
      rows[i] == BranchRow(branches[i].id, branches[i].code, branches[i].name, StatusLabel(branches[i].status),
                           mark == Some(branches[i].id))
  {
    if |branches| == 0 then [EmptyRow(EmptyMessage)]
    else
      seq(|branches|, i requires 0 <= i < |branches| =>
        BranchRow(branches[i].id, branches[i].code, branches[i].name, StatusLabel(branches[i].status),
                  mark == Some(branches[i].id)))
  }

  /** The rendered list never loses a branch: the branch rows are exactly the input, in order. */
  lemma RowsListEveryBranch(branches: seq<MasterRecord>, mark: Option<int>)
    requires |branches| > 0
    ensures forall i :: 0 <= i < |Rows(branches, mark)| ==> Rows(branches, mark)[i].BranchRow?
    ensures seq(|Rows(branches, mark)|, i requires 0 <= i < |Rows(branches, mark)| => Rows(branches, mark)[i].id) == IdsOf(branches)
  {
  }

  /** The buttons of the delete column. */
  datatype DeleteClick = ClickDelete(id: int) | ClickConfirm(id: int) | ClickCancel(id: int)

  /** A button exists only on its row in the right mode: Delete on unmarked rows, Confirm and Cancel on the marked one. */
  predicate Available(branches: seq<MasterRecord>, mark: Option<int>, c: DeleteClick) {
    (exists i :: 0 <= i < |branches| && branches[i].id == c.id)
    && (if c.ClickDelete? then mark != Some(c.id) else mark == Some(c.id))
  }

  /** The new mark and the id passed to `onDelete`, if any. */
  datatype DeleteOutcome = DeleteOutcome(mark: Option<int>, deleted: Option<int>)

  function Press(mark: Option<int>, c: DeleteClick): (o: DeleteOutcome)
    ensures c.ClickDelete? ==> o == DeleteOutcome(Some(c.id), None)
    ensures !c.ClickDelete? ==> o.mark.None?
    ensures o.deleted.Some? <==> c.ClickConfirm?
    ensures c.ClickConfirm? ==> o.deleted == Some(c.id)
  {
    match c
    case ClickDelete(id) => DeleteOutcome(Some(id), None)
    case ClickConfirm(id) => DeleteOutcome(None, Some(id))
    case ClickCancel(_) => DeleteOutcome(None, None)
  }

  /** A delete reaches the page only from Confirm on the row that was marked, and with that row's id. */
  lemma DeleteOnlyAfterConfirm(branches: seq<MasterRecord>, mark: Option<int>, c: DeleteClick)
    requires Available(branches, mark, c)
    ensures Press(mark, c).deleted.Some? ==> mark.Some? && Press(mark, c).deleted == mark
    ensures mark.None? ==> Press(mark, c).deleted.None?
  {
  }

  /** With unique ids, at most one row is in its confirming state. */
  lemma AtMostOneConfirming(branches: seq<MasterRecord>, mark: Option<int>, j: int, k: int)
    requires DistinctIds(branches)
    requires 0 <= j < |branches| && 0 <= k < |branches|
    requires Rows(branches, mark)[j].confirming && Rows(branches, mark)[k].confirming
    ensures j == k
  {
  }

  /** The mark is an id, not a row: two rows sharing an id are marked and confirmed together. */
  lemma DuplicateIdsConfirmTogether(a: MasterRecord, b: MasterRecord)
    requires a.id == b.id
    ensures Rows([a, b], Press(None, ClickDelete(a.id)).mark)[0].confirming
    ensures Rows([a, b], Press(None, ClickDelete(a.id)).mark)[1].confirming
  {
  }
}

=== FILE: branch_page.dfy ===
/**
 The branch management page: its seed data, and the page invariant (unique ids
 and case-insensitively unique codes) kept by the form's save with the
 corrected id rule and by delete.
 */
module BranchPage {
  import opened Wrappers
  import opened Text
  import Seqs
  import opened MasterData
  import opened BranchForm

  const SeedBranches: seq<MasterRecord> := [
    MasterRecord(1, "JKT", "Jakarta", true),
    MasterRecord(2, "SBY", "Surabaya", true),
    MasterRecord(3, "BDG", "Bandung", false)
  ]

  lemma JakartaMatches()
    ensures Matches(SeedBranches[0], "jak", "active")
  {
    assert ToLower("jak") == "jak";
    assert ToLower("Jakarta") == "jakarta";
    assert "jak" <= "jakarta";
  }

  lemma SurabayaMisses()
    ensures !MatchesSearch(SeedBranches[1], "jak")
  {
    LetterAbsentNotContainedIgnoringCase("Surabaya", "jak");
    LetterAbsentNotContainedIgnoringCase("SBY", "jak");
  }

  /** Searching "jak" among active branches finds Jakarta only. */
  lemma SeedSearchExample()
    ensures FilterRecords(SeedBranches, "jak", "active") == [SeedBranches[0]]
  {
    JakartaMatches();
    SurabayaMisses();
    assert !SeedBranches[2].status;
    assert SeedBranches == [SeedBranches[0], SeedBranches[1], SeedBranches[2]];
    Seqs.FilterOfThree(SeedBranches[0], SeedBranches[1], SeedBranches[2], (x: MasterRecord) => Matches(x, "jak", "active"));
  }

  /** The seed list is numbered 1, 2, 3. */
  lemma SeedIsDense()
    ensures DenseIds(SeedBranches)
  {
  }

  /** The seed list satisfies the page invariant. */
  lemma SeedIsWellFormed()
    ensures DistinctIds(SeedBranches) && DistinctCodes(SeedBranches)
  {
    assert ToLower("JKT") == "jkt" && ToLower("SBY") == "sby" && ToLower("BDG") == "bdg";
  }

  /** On the seed, deleting Jakarta and adding a branch gives two branches with id 3. */
  lemma SeedIdCollision(d: FormData)
    ensures var r := Create(Delete(SeedBranches, 1), d);
      |r| == 3 && r[1].id == 3 && r[2].id == 3
  {
    SeedIsDense();
    DeleteThenCreateRepeatsId(SeedBranches, 1, d);
  }

  ghost predicate PageInvariant(records: seq<MasterRecord>) {
    DistinctIds(records) && DistinctCodes(records)
  }

  /** Saving what the form accepted, with the corrected id rule, keeps ids and codes unique. */
  lemma SaveKeepsInvariant(st: PageState, form: FormData)
    requires PageInvariant(st.records)
    requires Submit(form, st.records, st.selected).saved.Some?
    ensures PageInvariant(HandleSaveFresh(st, Submit(form, st.records, st.selected).saved.value).records)
  {
    var d := Submit(form, st.records, st.selected).saved.value;
    var r := HandleSaveFresh(st, d).records;
    SaveFreshKeepsDistinctIds(st, d);
    forall j, k | 0 <= j < k < |r|
      ensures ToLower(r[j].code) != ToLower(r[k].code)
    {
      if st.selected.Some? {
        var id := st.selected.value.id;
        if st.records[j].id == id {
          SavedCodeIsUnique(form, st.records, st.selected, k);
        } else if st.records[k].id == id {
          SavedCodeIsUnique(form, st.records, st.selected, j);
        }
      } else if k == |st.records| {
        SavedCodeIsUnique(form, st.records, st.selected, j);
      }
    }
  }

  /** Deleting keeps ids and codes unique. */
  lemma DeleteKeepsInvariant(st: PageState, id: int)
    requires PageInvariant(st.records)
    ensures PageInvariant(HandleDelete(st, id).records)
  {
    var r := Delete(st.records, id);
    DeleteKeepsDistinctIds(st.records, id);
    forall j, k | 0 <= j < k < |r|
      ensures ToLower(r[j].code) != ToLower(r[k].code)
    {
      SubseqIndices(r, st.records, j, k);
    }
  }
}

=== FILE: digital_pass.dfy ===
/**
 The digital pass view: the pass id derived from a schedule, one row per
 schedule with its View Pass button (disabled once the trip has arrived), and
 the pass dialog.

 `new Date(pickupTime).getTime()` is supplied as `epochOf`; `None` stands for
 an unparsable date, whose `getTime()` is `NaN`.
 */
module DigitalPass {
  import opened Wrappers
  import opened Text
  import opened Schedules

  /** How a template literal prints the result of `getTime()`. */
  function EpochText(epoch: Option<int>): string {
    if epoch.None? then "NaN" else IntToString(epoch.value)
  }

  /** The pass id for an order number and a pickup epoch. */
  function PassIdOf(orderNumber: string, epoch: Option<int>): (id: string)
    ensures "PASS-" + orderNumber + "-" <= id
    ensures id[|"PASS-" + orderNumber + "-"|..] == EpochText(epoch)
  {
    "PASS-" + orderNumber + "-" + EpochText(epoch)
  }

  /** `generatePassId(schedule)`. */
  function PassId(s: Schedule, epochOf: string -> Option<int>): (p: string)
    ensures "PASS-" + s.orderNumber + "-" <= p
    ensures p[|"PASS-" + s.orderNumber + "-"|..] == EpochText(epochOf(s.pickupTime))
  {
    PassIdOf(s.orderNumber, epochOf(s.pickupTime))
  }

  /** The schedule's own id plays no part: two schedules with the same order number and pickup time share a pass id. */
  lemma PassIdIgnoresScheduleId(s: Schedule, t: Schedule, epochOf: string -> Option<int>)
    requires s.orderNumber == t.orderNumber && s.pickupTime == t.pickupTime
    ensures PassId(s, epochOf) == PassId(t, epochOf)
  {
  }

  lemma ParseNaN()
    ensures ParseInt("NaN") == None
  {
    assert TrimStart("NaN") == "NaN";
    assert LeadingDigits("NaN", 10) == [];
  }

  /** For one order number, different pickup epochs (or NaN) always give different pass ids. */
  lemma PassIdSeparatesEpochs(orderNumber: string, e1: Option<int>, e2: Option<int>)
    requires e1 != e2
    ensures PassIdOf(orderNumber, e1) != PassIdOf(orderNumber, e2)
  {
    var prefix := "PASS-" + orderNumber + "-";
    if PassIdOf(orderNumber, e1) == PassIdOf(orderNumber, e2) {
      assert EpochText(e1) == EpochText(e2);
      ParseNaN();
      if e1.Some? {
        ParseIntToString(e1.value);
      }
      if e2.Some? {
        ParseIntToString(e2.value);
      }
    }
  }

  lemma AppendDigit(n: nat, d: nat)
    requires 0 < n && d < 10
    ensures NatToString(10 * n + d) == NatToString(n) + [DigitChar(d)]
  {
    assert (10 * n + d) / 10 == n && (10 * n + d) % 10 == d;
  }

  lemma DecimalPrefix4()
    ensures NatToString(1745) == "1745"
  {
    AppendDigit(1, 7);
    AppendDigit(17, 4);
    AppendDigit(174, 5);
  }

  lemma DecimalPrefix7()
    ensures NatToString(1745136) == "1745136"
  {
    DecimalPrefix4();
    AppendDigit(1745, 1);
    AppendDigit(17451, 3);
    AppendDigit(174513, 6);
  }

  lemma DecimalPrefix10()
    ensures NatToString(1745136000) == "1745136000"
  {
    DecimalPrefix7();
    AppendDigit(1745136, 0);
    AppendDigit(17451360, 0);
    AppendDigit(174513600, 0);
  }

  lemma DecimalExample()
    ensures NatToString(1745136000000) == "1745136000000"
  {
    DecimalPrefix10();
    AppendDigit(1745136000, 0);
    AppendDigit(17451360000, 0);
    AppendDigit(174513600000, 0);
  }

  lemma EpochTextExample()
    ensures EpochText(Some(1745136000000)) == "1745136000000"
  {
    DecimalExample();
    assert IntToString(1745136000000) == NatToString(1745136000000);
  }

  /** The worked example: order ORD001 picked up at epoch 1745136000000. */
  lemma PassIdExample()
    ensures PassIdOf("ORD001", Some(1745136000000)) == "PASS-ORD001-" + "1745136000000"
  {
    EpochTextExample();
  }

  /** The View Pass button is enabled until the trip has arrived. */
  predicate ViewPassEnabled(s: Schedule) {
    s.status != Arrived
  }

  datatype PassRow = PassRow(scheduleId: int, passId: string, driverName: string, orderNumber: string,
                             status: string, viewEnabled: bool)

  /** The table: one row per schedule, in input order. */
  function Rows(schedules: seq<Schedule>, epochOf: string -> Option<int>): (rows: seq<PassRow>)
    ensures |rows| == |schedules|
    ensures forall i :: 0 <= i < |rows| ==>
      && rows[i].scheduleId == schedules[i].id
      && rows[i].passId == PassId(schedules[i], epochOf)
      && rows[i].driverName == schedules[i].driverName
      && rows[i].status == schedules[i].status
      && (rows[i].viewEnabled <==> schedules[i].status != Arrived)
  {
    seq(|schedules|, i requires 0 <= i < |schedules| =>
      var s := schedules[i];
      PassRow(s.id, PassId(s, epochOf), s.driverName, s.orderNumber, s.status, ViewPassEnabled(s)))
  }

  /** The dialog is open exactly while a pass is selected. */
  predicate DialogOpen(selectedPass: Option<Schedule>) {
    selectedPass.Some?
  }

  /** Pressing View Pass on a row: a disabled button does nothing, an enabled one selects the row's schedule. */
  function ClickViewPass(selectedPass: Option<Schedule>, s: Schedule): (r: Option<Schedule>)
    ensures ViewPassEnabled(s) ==> DialogOpen(r) && r.value == s
    ensures !ViewPassEnabled(s) ==> r == selectedPass
  {
    if ViewPassEnabled(s) then Some(s) else selectedPass
  }

  /** `handleClosePass`. */
  function ClosePass(selectedPass: Option<Schedule>): (r: Option<Schedule>)
    ensures !DialogOpen(r)
  {
    None
  }

  /** The dialog opened from a row shows the same pass id as that row. */
  lemma DialogShowsRowPassId(schedules: seq<Schedule>, i: int, epochOf: string -> Option<int>, selectedPass: Option<Schedule>)
    requires 0 <= i < |schedules| && schedules[i].status != Arrived
    ensures var d := ClickViewPass(selectedPass, schedules[i]);
      DialogOpen(d) && PassId(d.value, epochOf) == Rows(schedules, epochOf)[i].passId
  {
  }
}

=== FILE: master_data.dfy ===
/**
 The master-data page shared by the branch and role screens: a list of
 `{ id, code, name, status }` records, the search and status filter, save
 (update of the selected record or creation of a new one) and delete, and the
 page state that ties the list to the form.

 As written, a new record gets the id `records.length + 1`, which repeats an
 existing id once a record other than the last has been deleted
 (`DeleteThenCreateRepeatsId`). `CreateFresh` takes one more than the largest
 id instead; `HandleSaveFresh` uses it, and the page invariant
 (`SaveFreshKeepsDistinctIds`) is proved for that version.
 */
module MasterData {
  import opened Wrappers
  import opened Text
  import Seqs

  datatype MasterRecord = MasterRecord(id: int, code: string, name: string, status: bool)

  /** What the form hands to `onSave`: every field except the id. */
  datatype FormData = FormData(code: string, name: string, status: bool)

  function IdsOf(records: seq<MasterRecord>): (ids: seq<int>)
    ensures |ids| == |records|
    ensures forall i :: 0 <= i < |ids| ==> ids[i] == records[i].id
  {
    seq(|records|, i requires 0 <= i < |records| => records[i].id)
  }

  ghost predicate DistinctIds(records: seq<MasterRecord>) {
    forall j, k :: 0 <= j < k < |records| ==> records[j].id != records[k].id
  }

  /** Codes are unique ignoring case, as the form's uniqueness check compares them. */
  ghost predicate DistinctCodes(records: seq<MasterRecord>) {
    forall j, k :: 0 <= j < k < |records| ==> ToLower(records[j].code) != ToLower(records[k].code)
  }

  // ---------------------------------------------------------------------------
  // Filtering
  // ---------------------------------------------------------------------------

  /** Case-insensitive substring search over name and code. */
  predicate MatchesSearch(r: MasterRecord, query: string) {
    Contains(ToLower(r.name), ToLower(query)) || Contains(ToLower(r.code), ToLower(query))
  }

  /** `"all"`, `"active"` or `"inactive"`; any other value matches no record. */
  predicate MatchesStatus(r: MasterRecord, filterStatus: string) {
    filterStatus == "all" || (filterStatus == "active" && r.status) || (filterStatus == "inactive" && !r.status)
  }

  predicate Matches(r: MasterRecord, query: string, filterStatus: string) {
    MatchesSearch(r, query) && MatchesStatus(r, filterStatus)
  }

  /** The page's filtered list: the ordered subsequence of records passing both filters. */
  function FilterRecords(records: seq<MasterRecord>, query: string, filterStatus: string): (r: seq<MasterRecord>)
    ensures Seqs.IsSubseq(r, records)
    ensures forall x {:trigger multiset(r)[x]} ::
              multiset(r)[x] == (if Matches(x, query, filterStatus) then multiset(records)[x] else 0)
    ensures forall x :: x in r <==> x in records && Matches(x, query, filterStatus)
  {
    Seqs.Filter(records, (x: MasterRecord) => Matches(x, query, filterStatus))
  }

  /** The Active and Inactive choices split the All list between them: every record lands in exactly one. */
  lemma StatusFiltersPartition(records: seq<MasterRecord>, query: string)
    ensures multiset(FilterRecords(records, query, "active")) + multiset(FilterRecords(records, query, "inactive"))
         == multiset(FilterRecords(records, query, "all"))
  {
    var a := FilterRecords(records, query, "active");
    var n := FilterRecords(records, query, "inactive");
    var all := FilterRecords(records, query, "all");
    assert forall x :: (multiset(a) + multiset(n))[x] == multiset(all)[x];
  }

  /** A status value other than the three offered ones filters out everything. */
  lemma UnknownStatusMatchesNothing(records: seq<MasterRecord>, query: string, filterStatus: string)
    requires filterStatus != "all" && filterStatus != "active" && filterStatus != "inactive"
    ensures FilterRecords(records, query, filterStatus) == []
  {
    Seqs.FilterKeepsNone(records, (x: MasterRecord) => Matches(x, query, filterStatus));
  }

  /** The empty query with `"all"` shows every record. */
  lemma EmptyQueryShowsAll(records: seq<MasterRecord>)
    ensures FilterRecords(records, "", "all") == records
  {
    Seqs.FilterKeepsAll(records, (x: MasterRecord) => Matches(x, "", "all"));
  }

  // ---------------------------------------------------------------------------
  // Save and delete
  // ---------------------------------------------------------------------------

  /** `{ ...record, ...data }`: the form's fields replace the record's, the id stays. */
  function Merge(r: MasterRecord, d: FormData): (m: MasterRecord)
    ensures m.id == r.id
    ensures FormData(m.code, m.name, m.status) == d
  {
    r.(code := d.code, name := d.name, status := d.status)
  }

  /** The update branch of the save handler: every record carrying the selected id is merged with the form data. */
  function Update(records: seq<MasterRecord>, selectedId: int, d: FormData): (r: seq<MasterRecord>)
    ensures |r| == |records|
    ensures forall i :: 0 <= i < |r| && records[i].id != selectedId ==> r[i] == records[i]
    ensures forall i :: 0 <= i < |r| && records[i].id == selectedId ==> r[i] == MasterRecord(selectedId, d.code, d.name, d.status)
  {
    seq(|records|, i requires 0 <= i < |records| =>
      if records[i].id == selectedId then Merge(records[i], d) else records[i])
  }

  /** Updating never changes the list of ids. */
  lemma UpdateKeepsIds(records: seq<MasterRecord>, selectedId: int, d: FormData)
    ensures IdsOf(Update(records, selectedId, d)) == IdsOf(records)
  {
  }

  /** The create branch as written: append a record whose id is the current length plus one. */
  function Create(records: seq<MasterRecord>, d: FormData): (r: seq<MasterRecord>)
    ensures |r| == |records| + 1 && r[..|records|] == records
    ensures r[|records|].id == |records| + 1 && FormData(r[|records|].code, r[|records|].name, r[|records|].status) == d
  {
    records + [MasterRecord(|records| + 1, d.code, d.name, d.status)]
  }

  /** The `filter` callback of the delete handler. */
  function IdIsNot(id: int): MasterRecord -> bool {
    (x: MasterRecord) => x.id != id
  }

  /** The delete handler: keep the records whose id differs. */
  function Delete(records: seq<MasterRecord>, id: int): (r: seq<MasterRecord>)
    ensures Seqs.IsSubseq(r, records)
    ensures forall x {:trigger multiset(r)[x]} :: multiset(r)[x] == (if x.id != id then multiset(records)[x] else 0)
    ensures forall i :: 0 <= i < |r| ==> r[i].id != id
  {
    var r := Seqs.Filter(records, IdIsNot(id));
    assert forall i :: 0 <= i < |r| ==> r[i] in r;
    r
  }

  /** Deleting an id that is not present leaves the list as it was. */
  lemma DeleteAbsentIsIdentity(records: seq<MasterRecord>, id: int)
    requires forall i :: 0 <= i < |records| ==> records[i].id != id
    ensures Delete(records, id) == records
  {
    Seqs.FilterKeepsAll(records, IdIsNot(id));
  }

  /** The seed lists number their records 1, 2, ..., n. */
  ghost predicate DenseIds(records: seq<MasterRecord>) {
    forall i :: 0 <= i < |records| ==> records[i].id == i + 1
  }

  /** On a densely numbered list, deleting id `k` removes exactly the `k`-th record. */
  lemma DeleteDense(records: seq<MasterRecord>, k: int)
    requires DenseIds(records) && 1 <= k <= |records|
    ensures Delete(records, k) == records[..k - 1] + records[k..]
  {
    Seqs.FilterRemovesOne(records, IdIsNot(k), k - 1);
  }

  /** As written: on a densely numbered list, deleting any record but the last and then creating one repeats the last id. */
  lemma DeleteThenCreateRepeatsId(records: seq<MasterRecord>, k: int, d: FormData)
    requires DenseIds(records) && 1 <= k < |records|
    ensures var r := Create(Delete(records, k), d);
      |r| == |records| && r[|r| - 2].id == r[|r| - 1].id == |records|
  {
    DeleteDense(records, k);
    var kept := Delete(records, k);
    assert |kept| == |records| - 1;
    assert kept[|kept| - 1] == records[|records| - 1];
    var r := Create(kept, d);
    assert r[|r| - 2] == kept[|kept| - 1];
  }

  /** Creation keeps a list densely numbered, so without deletes the length rule gives fresh ids. */
  lemma CreateKeepsDense(records: seq<MasterRecord>, d: FormData)
    requires DenseIds(records)
    ensures DenseIds(Create(records, d)) && DistinctIds(Create(records, d))
  {
  }

  /** The largest id, or 0 for an empty list. */
  function MaxId(records: seq<MasterRecord>): (m: int)
    ensures m >= 0
    ensures forall i :: 0 <= i < |records| ==> records[i].id <= m
    ensures m == 0 || exists i :: 0 <= i < |records| && records[i].id == m
    decreases |records|
  {
    if |records| == 0 then 0
    else
      var rest := MaxId(records[..|records| - 1]);
      var last := records[|records| - 1].id;
      if last > rest then last else rest
  }

  /** Corrected create: the new id is one more than the largest existing id. */
  function CreateFresh(records: seq<MasterRecord>, d: FormData): (r: seq<MasterRecord>)
    ensures |r| == |records| + 1 && r[..|records|] == records
    ensures forall i :: 0 <= i < |records| ==> records[i].id != r[|records|].id
    ensures r[|records|].id > 0
    ensures FormData(r[|records|].code, r[|records|].name, r[|records|].status) == d
  {
    records + [MasterRecord(MaxId(records) + 1, d.code, d.name, d.status)]
  }

  /** On a densely numbered list the corrected rule gives the same id as the length rule. */
  lemma {:induction false} MaxIdDense(records: seq<MasterRecord>)
    requires DenseIds(records)
    ensures MaxId(records) == |records|
    decreases |records|
  {
    if |records| > 0 {
      MaxIdDense(records[..|records| - 1]);
    }
  }

  lemma CreateFreshAgreesWhenDense(records: seq<MasterRecord>, d: FormData)
    requires DenseIds(records)
    ensures CreateFresh(records, d) == Create(records, d)
  {
    MaxIdDense(records);
  }

  // ---------------------------------------------------------------------------
  // The page state
  // ---------------------------------------------------------------------------

  datatype PageState = PageState(
    records: seq<MasterRecord>,
    showForm: bool,
    selected: Option<MasterRecord>,
    searchQuery: string,
    filterStatus: string)

  function InitialPage(seed: seq<MasterRecord>): (st: PageState)
    ensures st.records == seed && !st.showForm && st.selected.None?
    ensures st.searchQuery == "" && st.filterStatus == "all"
  {
    PageState(seed, false, None, "", "all")
  }

  /** What the list component receives. */
  function Visible(st: PageState): seq<MasterRecord> {
    FilterRecords(st.records, st.searchQuery, st.filterStatus)
  }

  /** The list's Edit button: the form opens on that record. */
  function OnEdit(st: PageState, r: MasterRecord): (st': PageState)
    ensures st'.showForm && st'.selected == Some(r) && st'.records == st.records
    ensures st'.searchQuery == st.searchQuery && st'.filterStatus == st.filterStatus
  {
    st.(selected := Some(r), showForm := true)
  }

  /** The list's Add button: the form opens with no record selected. */
  function OnAdd(st: PageState): (st': PageState)
    ensures st'.showForm && st'.selected.None? && st'.records == st.records
    ensures st'.searchQuery == st.searchQuery && st'.filterStatus == st.filterStatus
  {
    st.(selected := None, showForm := true)
  }

  /** The form's Cancel button: the form closes and the list is untouched. */
  function OnCancel(st: PageState): (st': PageState)
    ensures !st'.showForm && st'.selected.None? && st'.records == st.records
    ensures st'.searchQuery == st.searchQuery && st'.filterStatus == st.filterStatus
  {
    st.(showForm := false, selected := None)
  }

  /** The save handler as written: update when a record is selected, create otherwise; then close the form. */
  function HandleSave(st: PageState, d: FormData): (st': PageState)
    ensures !st'.showForm && st'.selected.None?
    ensures st.selected.Some? ==> st'.records == Update(st.records, st.selected.value.id, d)
    ensures st.selected.None? ==> st'.records == Create(st.records, d)
    ensures st'.searchQuery == st.searchQuery && st'.filterStatus == st.filterStatus
  {
    var records := if st.selected.Some? then Update(st.records, st.selected.value.id, d) else Create(st.records, d);
    st.(records := records, showForm := false, selected := None)
  }

  /** The save handler with the corrected id rule. */
  function HandleSaveFresh(st: PageState, d: FormData): (st': PageState)
    ensures !st'.showForm && st'.selected.None?
    ensures st.selected.Some? ==> st'.records == Update(st.records, st.selected.value.id, d)
    ensures st.selected.None? ==> st'.records == CreateFresh(st.records, d)
    ensures st'.searchQuery == st.searchQuery && st'.filterStatus == st.filterStatus
  {
    var records := if st.selected.Some? then Update(st.records, st.selected.value.id, d) else CreateFresh(st.records, d);
    st.(records := records, showForm := false, selected := None)
  }

  /** The delete handler; the form, if open, stays open. */
  function HandleDelete(st: PageState, id: int): (st': PageState)
    ensures st'.records == Delete(st.records, id)
    ensures st'.showForm == st.showForm && st'.selected == st.selected
    ensures st'.searchQuery == st.searchQuery && st'.filterStatus == st.filterStatus
  {
    st.(records := Delete(st.records, id))
  }

  lemma DeleteKeepsDistinctIds(records: seq<MasterRecord>, id: int)
    requires DistinctIds(records)
    ensures DistinctIds(Delete(records, id))
  {
    var r := Delete(records, id);
    forall j, k | 0 <= j < k < |r|
      ensures r[j].id != r[k].id
    {
      SubseqIndices(r, records, j, k);
    }
  }

  /** Two positions of a subsequence come from two increasing positions of the sequence. */
  lemma {:induction false} SubseqIndices(r: seq<MasterRecord>, s: seq<MasterRecord>, j: int, k: int)
    requires Seqs.IsSubseq(r, s) && 0 <= j < k < |r|
    ensures exists j', k' :: 0 <= j' < k' < |s| && r[j] == s[j'] && r[k] == s[k']
    decreases |s|
  {
    assert |s| > 0;
    if r[0] == s[0] && Seqs.IsSubseq(r[1..], s[1..]) {
      if j == 0 {
        SubseqElement(r[1..], s[1..], k - 1);
        var k' :| 0 <= k' < |s[1..]| && r[1..][k - 1] == s[1..][k'];
        assert r[k] == s[k' + 1];
      } else {
        SubseqIndices(r[1..], s[1..], j - 1, k - 1);
        var j', k' :| 0 <= j' < k' < |s[1..]| && r[1..][j - 1] == s[1..][j'] && r[1..][k - 1] == s[1..][k'];
        assert r[j] == s[j' + 1] && r[k] == s[k' + 1];
      }
    } else {
      SubseqIndices(r, s[1..], j, k);
      var j', k' :| 0 <= j' < k' < |s[1..]| && r[j] == s[1..][j'] && r[k] == s[1..][k'];
      assert r[j] == s[j' + 1] && r[k] == s[k' + 1];
    }
  }

  lemma {:induction false} SubseqElement(r: seq<MasterRecord>, s: seq<MasterRecord>, k: int)
    requires Seqs.IsSubseq(r, s) && 0 <= k < |r|
    ensures exists k' :: 0 <= k' < |s| && r[k] == s[k']
    decreases |s|
  {
    assert |s| > 0;
    if r[0] == s[0] && Seqs.IsSubseq(r[1..], s[1..]) {
      if k > 0 {
        SubseqElement(r[1..], s[1..], k - 1);
        var k' :| 0 <= k' < |s[1..]| && r[1..][k - 1] == s[1..][k'];
        assert r[k] == s[k' + 1];
      } else {
        assert r[k] == s[0];
      }
    } else {
      SubseqElement(r, s[1..], k);
      var k' :| 0 <= k' < |s[1..]| && r[k] == s[1..][k'];
      assert r[k] == s[k' + 1];
    }
  }

  /** With the corrected id rule, every save and delete keeps ids unique. */
  lemma SaveFreshKeepsDistinctIds(st: PageState, d: FormData)
    requires DistinctIds(st.records)
    ensures DistinctIds(HandleSaveFresh(st, d).records)
  {
    UpdateKeepsIds(st.records, if st.selected.Some? then st.selected.value.id else 0, d);
    var r := HandleSaveFresh(st, d).records;
    if st.selected.Some? {
      forall j, k | 0 <= j < k < |r|
        ensures r[j].id != r[k].id
      {
        assert r[j].id == st.records[j].id && r[k].id == st.records[k].id;
      }
    }
  }
}

=== FILE: mock_api.dfy ===
/**
 The mock authentication and branch API: credential matching, the dummy token
 and how the current user is read back from it, logout, and the branch
 lookups. The simulated network delays are left out; `Date.now()` is the
 parameter `now`, and `localStorage` is a map from keys to strings.
 */
module MockApi {
  import opened Wrappers
  import opened Text
  import Seqs

  datatype User = User(id: int, email: string, password: string, name: string, role: string, branches: seq<int>)

  /** A user as the API returns it: everything but the password. */
  datatype PublicUser = PublicUser(id: int, email: string, name: string, role: string, branches: seq<int>)

  datatype ApiBranch = ApiBranch(id: int, name: string, address: string)

  const SeedUsers: seq<User> := [
    User(1, "admin@konimex.com", "admin123", "Admin Konimex", "admin", [1, 2, 3]),
    User(2, "user@konimex.com", "user123", "User Konimex", "user", [1])
  ]

  const SeedBranches: seq<ApiBranch> := [
    ApiBranch(1, "Jakarta", "Jl. Jakarta No. 123"),
    ApiBranch(2, "Surabaya", "Jl. Surabaya No. 456"),
    ApiBranch(3, "Bandung", "Jl. Bandung No. 789")
  ]

  const InvalidCredentials: string := "Invalid email or password"
  const NotAuthenticated: string := "Not authenticated"
  const UserNotFound: string := "User not found"
  const BranchNotFound: string := "Branch not found"

  function Public(u: User): (p: PublicUser)
    ensures p.id == u.id && p.email == u.email && p.name == u.name && p.role == u.role && p.branches == u.branches
  {
    PublicUser(u.id, u.email, u.name, u.role, u.branches)
  }

  /** The first user satisfying `p`, as `Array.prototype.find` returns it. */
  function FindUser(users: seq<User>, p: User -> bool): (r: Option<User>)
    ensures r.None? <==> forall i :: 0 <= i < |users| ==> !p(users[i])
    ensures r.Some? ==> exists i :: (0 <= i < |users| && users[i] == r.value && p(r.value)
      && forall j :: 0 <= j < i ==> !p(users[j]))
    decreases |users|
  {
    if |users| == 0 then None
    else if p(users[0]) then Some(users[0])
    else
      var r := FindUser(users[1..], p);
      assert forall i :: 1 <= i < |users| ==> users[i] == users[1..][i - 1];
      assert r.Some? ==> exists i :: (0 <= i < |users| && users[i] == r.value && p(r.value)
          && forall j :: 0 <= j < i ==> !p(users[j])) by {
        if r.Some? {
          var i :| 0 <= i < |users[1..]| && users[1..][i] == r.value && p(r.value)
            && forall j :: 0 <= j < i ==> !p(users[1..][j]);
          assert users[i + 1] == r.value;
          assert forall j :: 0 <= j < i + 1 ==> !p(users[j]) by {
            forall j | 0 <= j < i + 1
              ensures !p(users[j])
            {
              if j > 0 {
                assert users[j] == users[1..][j - 1];
              }
            }
          }
        }
      }
      r
  }

  /** The `find` callbacks: a user with the given id, and a user with the given credentials. */
  function HasId(id: int): User -> bool {
    (u: User) => u.id == id
  }

  function HasCredentials(email: string, password: string): User -> bool {
    (u: User) => u.email == email && u.password == password
  }

  // ---------------------------------------------------------------------------
  // Authentication
  // ---------------------------------------------------------------------------

  /**
   The token handed out at login: `dummy-token-`, the user's id and the time,
   joined by dashes. For a non-negative id the third dash-separated field is the
   id's decimal text.
   */
  function Token(userId: int, now: int): (t: string)
    ensures "dummy-token-" <= t
    ensures userId >= 0 ==> |Split(t, '-')| >= 3 && Split(t, '-')[..3] == ["dummy", "token", IntToString(userId)]
  {
    var idText := IntToString(userId);
    var tail := IntToString(now);
    var t := "dummy" + ['-'] + ("token" + ['-'] + (idText + ['-'] + tail));
    assert t[..|"dummy-token-"|] == "dummy-token-";
    if userId >= 0 then
      assert forall k :: 0 <= k < |idText| ==> idText[k] != '-';
      TokenFields(idText, tail);
      t
    else t
  }

  /** A dash-free id field splits off as the third field of a token. */
  lemma TokenFields(idText: string, tail: string)
    requires '-' !in idText
    ensures Split("dummy" + ['-'] + ("token" + ['-'] + (idText + ['-'] + tail)), '-')
         == ["dummy", "token", idText] + Split(tail, '-')
  {
    SplitLeadingField(idText, '-', tail);
    SplitLeadingField("token", '-', idText + ['-'] + tail);
    SplitLeadingField("dummy", '-', "token" + ['-'] + (idText + ['-'] + tail));
  }

  datatype Session = Session(user: PublicUser, token: string)

  /** `authAPI.login(email, password)` at time `now`. */
  function Login(users: seq<User>, email: string, password: string, now: int): (r: Result<Session>)
    ensures r.Ok? <==> exists i :: 0 <= i < |users| && users[i].email == email && users[i].password == password
    ensures r.Err? ==> r.message == InvalidCredentials
    ensures r.Ok? ==> exists i :: (0 <= i < |users| && users[i].email == email && users[i].password == password
      && r.value == Session(Public(users[i]), Token(users[i].id, now))
      && forall j :: 0 <= j < i ==> !(users[j].email == email && users[j].password == password))
  {
    match FindUser(users, HasCredentials(email, password))
    case None => Err(InvalidCredentials)
    case Some(u) => Ok(Session(Public(u), Token(u.id, now)))
  }

  /** `parseInt(token.split('-')[2])`; a missing third field parses as `NaN`, here `None`. */
  function TokenUserId(token: string): (r: Option<int>)
    ensures |Split(token, '-')| < 3 ==> r.None?
  {
    var parts := Split(token, '-');
    if |parts| < 3 then None else ParseInt(parts[2])
  }

  /** The id written into a token is the one read back from it, for any non-negative id. */
  lemma TokenRoundTrip(userId: int, now: int)
    requires userId >= 0
    ensures TokenUserId(Token(userId, now)) == Some(userId)
  {
    var parts := Split(Token(userId, now), '-');
    assert parts[2] == parts[..3][2];
    ParseIntToString(userId);
  }

  lemma ParseEmpty()
    ensures ParseInt("") == None
  {
    assert TrimStart("") == "";
  }

  /** The token as the three fields before the time stamp, joined by dashes. */
  lemma TokenShape(userId: int, now: int)
    ensures Token(userId, now) == "dummy" + ['-'] + ("token" + ['-'] + (IntToString(userId) + ['-'] + IntToString(now)))
  {
  }

  /** A negative id is printed with its minus sign, which the split reads as an empty third field. */
  lemma NegativeIdTokenUnreadable(userId: int, now: int)
    requires userId < 0
    ensures TokenUserId(Token(userId, now)) == None
  {
    var idText := IntToString(userId);
    var rest := NatToString(-userId) + ['-'] + IntToString(now);
    assert idText + ['-'] + IntToString(now) == "" + ['-'] + rest;
    SplitLeadingField("", '-', rest);
    SplitLeadingField("token", '-', "" + ['-'] + rest);
    SplitLeadingField("dummy", '-', "token" + ['-'] + ("" + ['-'] + rest));
    TokenShape(userId, now);
    ParseEmpty();
  }

  /** `authAPI.getCurrentUser()` against the stored token. */
  function GetCurrentUser(users: seq<User>, storage: map<string, string>): (r: Result<PublicUser>)
    ensures ("token" !in storage || storage["token"] == "") <==> r == Err(NotAuthenticated)
    ensures r.Err? ==> r.message == NotAuthenticated || r.message == UserNotFound
    ensures r == Err(UserNotFound) <==> (
      && "token" in storage && storage["token"] != ""
      && (TokenUserId(storage["token"]).None?
          || forall i :: 0 <= i < |users| ==> users[i].id != TokenUserId(storage["token"]).value))
    ensures r.Ok? ==> ("token" in storage && TokenUserId(storage["token"]) == Some(r.value.id)
      && exists i :: (0 <= i < |users| && Public(users[i]) == r.value
        && forall j :: 0 <= j < i ==> users[j].id != r.value.id))
  {
    if "token" !in storage || storage["token"] == "" then Err(NotAuthenticated)
    else
      var userId := TokenUserId(storage["token"]);
      if userId.None? then Err(UserNotFound)
      else
        match FindUser(users, HasId(userId.value))
        case None => Err(UserNotFound)
        case Some(u) => Ok(Public(u))
  }

  /** `authAPI.logout()`: the token goes, every other key stays. */
  function Logout(storage: map<string, string>): (r: map<string, string>)
    ensures "token" !in r
    ensures forall k :: k in storage && k != "token" ==> k in r && r[k] == storage[k]
    ensures forall k :: k in r ==> k in storage
  {
    storage - {"token"}
  }

  /** Logging out makes the next current-user request fail as unauthenticated. */
  lemma LogoutThenNotAuthenticated(users: seq<User>, storage: map<string, string>)
    ensures GetCurrentUser(users, Logout(storage)) == Err(NotAuthenticated)
  {
  }

  ghost predicate DistinctUserIds(users: seq<User>) {
    forall j, k :: 0 <= j < k < |users| ==> users[j].id != users[k].id
  }

  /**
   Storing the token from a successful login, the current user is the one who
   logged in, provided user ids are unique and non-negative.
   */
  lemma LoginThenCurrentUser(users: seq<User>, email: string, password: string, now: int, storage: map<string, string>)
    requires DistinctUserIds(users) && forall i :: 0 <= i < |users| ==> users[i].id >= 0
    requires Login(users, email, password, now).Ok?
    ensures var s := Login(users, email, password, now).value;
      GetCurrentUser(users, storage["token" := s.token]) == Ok(s.user)
  {
    var s := Login(users, email, password, now).value;
    var i :| 0 <= i < |users| && users[i].email == email && users[i].password == password
      && s == Session(Public(users[i]), Token(users[i].id, now));
    TokenRoundTrip(users[i].id, now);
    assert s.token != "" by {
      assert |s.token| >= |"dummy-token-"|;
    }
    FindUserByUniqueId(users, i);
    var st := storage["token" := s.token];
    assert "token" in st && st["token"] == s.token;
    assert TokenUserId(st["token"]) == Some(users[i].id);
  }

  /** With unique ids, looking a user up by id finds that user. */
  lemma FindUserByUniqueId(users: seq<User>, i: int)
    requires DistinctUserIds(users) && 0 <= i < |users|
    ensures FindUser(users, HasId(users[i].id)) == Some(users[i])
  {
    var f := FindUser(users, HasId(users[i].id));
    assert HasId(users[i].id)(users[i]);
    var j :| 0 <= j < |users| && users[j] == f.value && HasId(users[i].id)(f.value);
    assert j == i;
  }

  /** The seed users log in with their own passwords only. */
  lemma SeedLogin(now: int)
    ensures Login(SeedUsers, "admin@konimex.com", "admin123", now).Ok?
    ensures Login(SeedUsers, "user@konimex.com", "user123", now).Ok?
  {
    assert HasCredentials("admin@konimex.com", "admin123")(SeedUsers[0]);
    assert HasCredentials("user@konimex.com", "user123")(SeedUsers[1]);
  }

  /** A seed email with another user's password is refused. */
  lemma SeedWrongPassword(now: int)
    ensures Login(SeedUsers, "user@konimex.com", "admin123", now) == Err(InvalidCredentials)
  {
    assert SeedUsers[0].email[0] == 'a';
    assert SeedUsers[1].password[0] == 'u';
    assert !HasCredentials("user@konimex.com", "admin123")(SeedUsers[0]);
    assert !HasCredentials("user@konimex.com", "admin123")(SeedUsers[1]);
  }

  // ---------------------------------------------------------------------------
  // Branch lookup
  // ---------------------------------------------------------------------------

  /** The `filter` callback: a branch whose id the user may access. */
  function IdIn(ids: seq<int>): ApiBranch -> bool {
    (b: ApiBranch) => b.id in ids
  }

  /** `branchAPI.getBranchesByUserId(userId)`. */
  function GetBranchesByUserId(users: seq<User>, branches: seq<ApiBranch>, userId: int): (r: Result<seq<ApiBranch>>)
    ensures r.Err? <==> forall i :: 0 <= i < |users| ==> users[i].id != userId
    ensures r.Err? ==> r.message == UserNotFound
    ensures r.Ok? ==> Seqs.IsSubseq(r.value, branches)
    ensures r.Ok? ==> exists i :: (0 <= i < |users| && users[i].id == userId
      && (forall j :: 0 <= j < i ==> users[j].id != userId)
      && (forall b :: b in r.value <==> b in branches && b.id in users[i].branches)
      && forall b {:trigger multiset(r.value)[b]} ::
           multiset(r.value)[b] == if b.id in users[i].branches then multiset(branches)[b] else 0)
  {
    match FindUser(users, HasId(userId))
    case None => Err(UserNotFound)
    case Some(u) => Ok(Seqs.Filter(branches, IdIn(u.branches)))
  }

  /** The first branch with the given id. */
  function FindBranch(branches: seq<ApiBranch>, id: int): (r: Option<ApiBranch>)
    ensures r.None? <==> forall i :: 0 <= i < |branches| ==> branches[i].id != id
    ensures r.Some? ==> exists i :: (0 <= i < |branches| && branches[i] == r.value && r.value.id == id
      && forall j :: 0 <= j < i ==> branches[j].id != id)
    decreases |branches|
  {
    if |branches| == 0 then None
    else if branches[0].id == id then Some(branches[0])
    else
      var r := FindBranch(branches[1..], id);
      assert r.Some? ==> exists i :: (0 <= i < |branches| && branches[i] == r.value && r.value.id == id
          && forall j :: 0 <= j < i ==> branches[j].id != id) by {
        if r.Some? {
          var i :| 0 <= i < |branches[1..]| && branches[1..][i] == r.value && r.value.id == id
            && forall j :: 0 <= j < i ==> branches[1..][j].id != id;
          assert branches[i + 1] == r.value;
          forall j | 0 <= j < i + 1
            ensures branches[j].id != id
          {
            if j > 0 {
              assert branches[j] == branches[1..][j - 1];
            }
          }
        }
      }
      r
  }

  /** `branchAPI.getBranchById(branchId)`. */
  function GetBranchById(branches: seq<ApiBranch>, branchId: int): (r: Result<ApiBranch>)
    ensures r.Err? <==> forall i :: 0 <= i < |branches| ==> branches[i].id != branchId
    ensures r.Err? ==> r.message == BranchNotFound
    ensures r.Ok? ==> r.value in branches && r.value.id == branchId
    ensures r.Ok? ==> exists i :: (0 <= i < |branches| && branches[i] == r.value
      && forall j :: 0 <= j < i ==> branches[j].id != branchId)
  {
    match FindBranch(branches, branchId)
    case None => Err(BranchNotFound)
    case Some(b) => Ok(b)
  }

  /** Every branch a user sees can be fetched by its id. */
  lemma UserBranchesResolve(users: seq<User>, branches: seq<ApiBranch>, userId: int, b: ApiBranch)
    requires GetBranchesByUserId(users, branches, userId).Ok? && b in GetBranchesByUserId(users, branches, userId).value
    ensures GetBranchById(branches, b.id).Ok?
  {
  }

  lemma SeedUserIdsDistinct()
    ensures DistinctUserIds(SeedUsers)
  {
  }

  /** On the seed data the administrator sees all three branches. */
  lemma SeedAdminBranches()
    ensures GetBranchesByUserId(SeedUsers, SeedBranches, 1) == Ok(SeedBranches)
  {
    assert HasId(1)(SeedUsers[0]);
    assert FindUser(SeedUsers, HasId(1)) == Some(SeedUsers[0]);
    forall i | 0 <= i < |SeedBranches|
      ensures IdIn(SeedUsers[0].branches)(SeedBranches[i])
    {
    }
    Seqs.FilterKeepsAll(SeedBranches, IdIn(SeedUsers[0].branches));
  }

  /** On the seed data the second user sees Jakarta only. */
  lemma SeedUserBranches()
    ensures GetBranchesByUserId(SeedUsers, SeedBranches, 2) == Ok([SeedBranches[0]])
  {
    SeedUserIdsDistinct();
    FindUserByUniqueId(SeedUsers, 1);
    assert SeedBranches == [SeedBranches[0], SeedBranches[1], SeedBranches[2]];
    assert SeedUsers[1].branches == [1];
    assert IdIn([1])(SeedBranches[0]) && !IdIn([1])(SeedBranches[1]) && !IdIn([1])(SeedBranches[2]);
    Seqs.FilterOfThree(SeedBranches[0], SeedBranches[1], SeedBranches[2], IdIn([1]));
  }

  /** An id that belongs to no user is reported as such. */
  lemma SeedUnknownUser()
    ensures GetBranchesByUserId(SeedUsers, SeedBranches, 3) == Err(UserNotFound)
  {
    assert forall i :: 0 <= i < |SeedUsers| ==> SeedUsers[i].id != 3;
  }
}

=== FILE: role_form.dfy ===
/**
 The role form: role values are flattened into five form fields (name,
 status and three dotted permission keys) and re-nested on submit into
 `{ name, isActive, permissions: { orders: { ... } } }`.

 A value missing in the source object (`undefined`) is `None`. The optional
 chaining on `permissions?.orders?` means a role without order permissions
 fills the three permission fields with `undefined`.
 */
module RoleForm {
  import opened Wrappers

  const NameRequiredMessage: string := "Please input the role name!"

  /** The order permissions; each flag may be absent. */
  datatype OrderPermissions = OrderPermissions(costInput: Option<bool>, approvalDN: Option<bool>, approvalLN: Option<bool>)

  /** `permissions`: the `orders` section and any other permission entries, by dotted path. */
  datatype Permissions = Permissions(orders: Option<OrderPermissions>, others: map<string, bool>)

  /** What the form receives as `initialData` and hands to `onSubmit`. */
  datatype RoleValues = RoleValues(name: string, isActive: bool, permissions: Option<Permissions>)

  /** The five form fields. */
  datatype FormFields = FormFields(
    name: Option<string>,
    isActive: bool,
    costInput: Option<bool>,
    approvalDN: Option<bool>,
    approvalLN: Option<bool>)

  /** `initialValues`: active, all three permissions unchecked, no name. */
  const DefaultFields: FormFields := FormFields(None, true, Some(false), Some(false), Some(false))

  /** `permissions?.orders`. */
  function OrdersOf(v: RoleValues): Option<OrderPermissions> {
    if v.permissions.None? then None else v.permissions.value.orders
  }

  /** The three flags as the form reads them, with optional chaining. */
  function CostInputOf(v: RoleValues): Option<bool> {
    if OrdersOf(v).None? then None else OrdersOf(v).value.costInput
  }

  function ApprovalDNOf(v: RoleValues): Option<bool> {
    if OrdersOf(v).None? then None else OrdersOf(v).value.approvalDN
  }

  function ApprovalLNOf(v: RoleValues): Option<bool> {
    if OrdersOf(v).None? then None else OrdersOf(v).value.approvalLN
  }

  /** `setFieldsValue` from the role being edited; without one the defaults stay. */
  function InitialFields(initialData: Option<RoleValues>): (f: FormFields)
    ensures initialData.None? ==> f == DefaultFields
    ensures initialData.Some? ==>
      && f.name == Some(initialData.value.name) && f.isActive == initialData.value.isActive
      && f.costInput == CostInputOf(initialData.value)
      && f.approvalDN == ApprovalDNOf(initialData.value)
      && f.approvalLN == ApprovalLNOf(initialData.value)
  {
    if initialData.None? then DefaultFields
    else
      var v := initialData.value;
      FormFields(Some(v.name), v.isActive, CostInputOf(v), ApprovalDNOf(v), ApprovalLNOf(v))
  }

  /** The `formattedData` built from the fields of a form that passed validation. */
  function Nest(name: string, f: FormFields): (v: RoleValues)
    ensures v.name == name && v.isActive == f.isActive
    ensures v.permissions.Some? && v.permissions.value.others == map[]
    ensures OrdersOf(v) == Some(OrderPermissions(f.costInput, f.approvalDN, f.approvalLN))
  {
    RoleValues(name, f.isActive, Some(Permissions(Some(OrderPermissions(f.costInput, f.approvalDN, f.approvalLN)), map[])))
  }

  /** The name rule: `required` rejects a missing or empty value. */
  predicate NameGiven(f: FormFields) {
    f.name.Some? && f.name.value != ""
  }

  /**
   Pressing Create/Update: the validation message or the values passed to
   `onSubmit`, and the successive values of the `loading` flag. Whether
   `onSubmit` throws (`submitFails`) does not change the outcome: the error is
   caught and logged, and `loading` is reset in `finally`.
   */
  datatype SubmitOutcome = SubmitOutcome(result: Result<RoleValues>, loadingTrace: seq<bool>, errorLogged: bool)

  function Submit(f: FormFields, submitFails: bool): (o: SubmitOutcome)
    ensures o.result.Ok? <==> NameGiven(f)
    ensures o.result.Err? ==> o.result.message == NameRequiredMessage && o.loadingTrace == []
    ensures o.result.Ok? ==> o.result.value == Nest(f.name.value, f)
    ensures o.result.Ok? ==> |o.loadingTrace| == 2 && o.loadingTrace[0] && !o.loadingTrace[1]
    ensures o.errorLogged <==> o.result.Ok? && submitFails
  {
    if !NameGiven(f) then SubmitOutcome(Err(NameRequiredMessage), [], false)
    else SubmitOutcome(Ok(Nest(f.name.value, f)), [true, false], submitFails)
  }

  /** A new form cannot be submitted before a name is typed. */
  lemma DefaultsNeedAName(submitFails: bool)
    ensures Submit(InitialFields(None), submitFails).result == Err(NameRequiredMessage)
  {
  }

  /**
   Round trip: flattening a role and submitting it unchanged gives back its
   name, status and the three order flags as read through optional chaining.
   */
  lemma FlattenNestRoundTrip(v: RoleValues, submitFails: bool)
    requires v.name != ""
    ensures var o := Submit(InitialFields(Some(v)), submitFails);
      && o.result.Ok?
      && o.result.value.name == v.name && o.result.value.isActive == v.isActive
      && CostInputOf(o.result.value) == CostInputOf(v)
      && ApprovalDNOf(o.result.value) == ApprovalDNOf(v)
      && ApprovalLNOf(o.result.value) == ApprovalLNOf(v)
  {
  }

  /** For a role with an orders section, submitting it unchanged loses exactly the other permission entries. */
  lemma RoundTripDropsOtherPermissions(v: RoleValues, submitFails: bool)
    requires v.name != "" && v.permissions.Some? && v.permissions.value.orders.Some?
    ensures Submit(InitialFields(Some(v)), submitFails).result
         == Ok(v.(permissions := Some(v.permissions.value.(others := map[]))))
  {
  }

  /** Editing a role whose name is empty reports the required-name message and submits nothing. */
  lemma EmptyNameRejected(v: RoleValues, submitFails: bool)
    requires v.name == ""
    ensures Submit(InitialFields(Some(v)), submitFails).result == Err(NameRequiredMessage)
  {
  }
}

=== FILE: role_list.dfy ===
/**
 The role list with its own data: the name search, delete, and the modal's
 submit that replaces an edited role or appends a new one.

 A new role's id is `Math.max(...ids) + 1`. JavaScript's `Math.max()` of no
 arguments is `-Infinity`, and `-Infinity + 1` is `-Infinity`, so ids are
 modelled as `RoleKey`: a finite integer or minus infinity. On a list without
 finite ids the rule gives `-Infinity` every time (`EmptyListRepeatsId`);
 `NextIdFresh` starts at 1 there instead and never repeats an id
 (`NextIdFresh`, `SubmitFreshKeepsDistinctIds`).
 */
module RoleList {
  import opened Wrappers
  import opened Text
  import Seqs
  import opened RoleForm

  datatype RoleKey = Finite(n: int) | MinusInfinity

  /** A role as the list holds it; `extra` stands for any further top-level fields. */
  datatype RoleRecord = RoleRecord(id: RoleKey, name: string, isActive: bool, permissions: Option<Permissions>,
                                   extra: map<string, string>)

  function Orders(costInput: bool, approvalDN: bool, approvalLN: bool): Option<Permissions> {
    Some(Permissions(Some(OrderPermissions(Some(costInput), Some(approvalDN), Some(approvalLN))), map[]))
  }

  const SeedRoles: seq<RoleRecord> := [
    RoleRecord(Finite(1), "Admin", true, Orders(true, true, true), map[]),
    RoleRecord(Finite(2), "Manager", true, Orders(true, true, false), map[])
  ]

  /** The values the form is opened with when editing. */
  function ValuesOf(r: RoleRecord): RoleValues {
    RoleValues(r.name, r.isActive, r.permissions)
  }

  // ---------------------------------------------------------------------------
  // Ids
  // ---------------------------------------------------------------------------

  /** `a + 1` on a JavaScript number that is an integer or minus infinity. */
  function Succ(k: RoleKey): RoleKey {
    if k.MinusInfinity? then MinusInfinity else Finite(k.n + 1)
  }

  /** `Math.max` of two keys. */
  function Max(a: RoleKey, b: RoleKey): (m: RoleKey)
    ensures m == a || m == b
    ensures a.Finite? && b.Finite? ==> m.n >= a.n && m.n >= b.n
    ensures m.MinusInfinity? <==> a.MinusInfinity? && b.MinusInfinity?
  {
    if a.MinusInfinity? then b
    else if b.MinusInfinity? then a
    else if a.n >= b.n then a else b
  }

  /** `Math.max(...data.map(r => r.id))`. */
  function MaxId(data: seq<RoleRecord>): (m: RoleKey)
    ensures m.MinusInfinity? <==> forall i :: 0 <= i < |data| ==> data[i].id.MinusInfinity?
    ensures m.Finite? ==> forall i :: 0 <= i < |data| && data[i].id.Finite? ==> data[i].id.n <= m.n
    ensures m.Finite? ==> exists i :: 0 <= i < |data| && data[i].id == m
    decreases |data|
  {
    if |data| == 0 then MinusInfinity
    else
      var rest := MaxId(data[1..]);
      var m := Max(data[0].id, rest);
      assert forall i :: 1 <= i < |data| ==> data[i] == data[1..][i - 1];
      assert rest.Finite? ==> exists i :: 0 <= i < |data| && data[i].id == rest by {
        if rest.Finite? {
          var j :| 0 <= j < |data[1..]| && data[1..][j].id == rest;
          assert data[j + 1].id == rest;
        }
      }
      m
  }

  /** The id the list gives a new role, as written. */
  function NextId(data: seq<RoleRecord>): (k: RoleKey)
    ensures k.MinusInfinity? <==> forall i :: 0 <= i < |data| ==> data[i].id.MinusInfinity?
    ensures k.Finite? ==> forall i :: 0 <= i < |data| && data[i].id.Finite? ==> data[i].id.n < k.n
  {
    Succ(MaxId(data))
  }

  /** As written, the new id is fresh whenever some existing id is finite. */
  lemma NextIdFreshWithFiniteId(data: seq<RoleRecord>, i: int)
    requires 0 <= i < |data| && data[i].id.Finite?
    ensures forall j :: 0 <= j < |data| ==> data[j].id != NextId(data)
  {
  }

  /** As written, on a list without finite ids (for example an empty one) the new id is minus infinity. */
  lemma NextIdWithoutFiniteIds(data: seq<RoleRecord>)
    requires forall i :: 0 <= i < |data| ==> data[i].id.MinusInfinity?
    ensures NextId(data) == MinusInfinity
  {
  }

  /** Corrected: one more than the largest finite id, or 1 when there is none. */
  function NextIdFresh(data: seq<RoleRecord>): (k: RoleKey)
    ensures k.Finite?
    ensures forall i :: 0 <= i < |data| ==> data[i].id != k
  {
    var m := MaxId(data);
    if m.MinusInfinity? then Finite(1) else Finite(m.n + 1)
  }

  /** Where some id is finite, the corrected rule agrees with the one as written. */
  lemma NextIdFreshAgrees(data: seq<RoleRecord>, i: int)
    requires 0 <= i < |data| && data[i].id.Finite?
    ensures NextIdFresh(data) == NextId(data)
  {
  }

  // ---------------------------------------------------------------------------
  // The list state and its handlers
  // ---------------------------------------------------------------------------

  datatype ListState = ListState(data: seq<RoleRecord>, searchText: string, modalOpen: bool, editing: Option<RoleRecord>)

  const InitialState: ListState := ListState(SeedRoles, "", false, None)

  /** The name column's filter. */
  predicate NameMatches(r: RoleRecord, searchText: string) {
    Contains(ToLower(r.name), ToLower(searchText))
  }

  /** The rows the table shows: the ordered subsequence of roles whose name contains the search text, ignoring case. */
  function Visible(st: ListState): (rows: seq<RoleRecord>)
    ensures Seqs.IsSubseq(rows, st.data)
    ensures forall x {:trigger multiset(rows)[x]} ::
      multiset(rows)[x] == if NameMatches(x, st.searchText) then multiset(st.data)[x] else 0
    ensures forall x :: x in rows <==> x in st.data && NameMatches(x, st.searchText)
  {
    Seqs.Filter(st.data, (x: RoleRecord) => NameMatches(x, st.searchText))
  }

  /** An empty search shows every role. */
  lemma EmptySearchShowsAll(st: ListState)
    requires st.searchText == ""
    ensures Visible(st) == st.data
  {
    Seqs.FilterKeepsAll(st.data, (x: RoleRecord) => NameMatches(x, st.searchText));
  }

  function HandleEdit(st: ListState, record: RoleRecord): (st': ListState)
    ensures st'.modalOpen && st'.editing == Some(record) && st'.data == st.data
    ensures st'.searchText == st.searchText
  {
    st.(editing := Some(record), modalOpen := true)
  }

  function HandleAddNew(st: ListState): (st': ListState)
    ensures st'.modalOpen && st'.editing.None? && st'.data == st.data
    ensures st'.searchText == st.searchText
  {
    st.(editing := None, modalOpen := true)
  }

  /** The modal's close button and the form's Cancel. */
  function CloseModal(st: ListState): (st': ListState)
    ensures !st'.modalOpen && st'.data == st.data && st'.editing == st.editing
    ensures st'.searchText == st.searchText
  {
    st.(modalOpen := false)
  }

  /** The `filter` callback of the delete handler. */
  function IdIsNot(id: RoleKey): RoleRecord -> bool {
    (x: RoleRecord) => x.id != id
  }

  /** `handleDelete(record)`: every role with the record's id goes, the rest keep their order and multiplicity. */
  function HandleDelete(st: ListState, record: RoleRecord): (st': ListState)
    ensures Seqs.IsSubseq(st'.data, st.data)
    ensures forall x {:trigger multiset(st'.data)[x]} ::
      multiset(st'.data)[x] == if x.id != record.id then multiset(st.data)[x] else 0
    ensures forall x :: x in st'.data <==> x in st.data && x.id != record.id
    ensures st'.modalOpen == st.modalOpen && st'.editing == st.editing
    ensures st'.searchText == st.searchText
  {
    st.(data := Seqs.Filter(st.data, IdIsNot(record.id)))
  }

  /** Deleting a role whose id no role carries changes nothing. */
  lemma DeleteAbsentIsIdentity(st: ListState, record: RoleRecord)
    requires forall i :: 0 <= i < |st.data| ==> st.data[i].id != record.id
    ensures HandleDelete(st, record) == st
  {
    Seqs.FilterKeepsAll(st.data, IdIsNot(record.id));
  }

  /** `{ ...values, id }`: the submitted values with the old id; nothing else of the old record survives. */
  function Replace(id: RoleKey, values: RoleValues): (r: RoleRecord)
    ensures r.id == id && ValuesOf(r) == values && r.extra == map[]
  {
    RoleRecord(id, values.name, values.isActive, values.permissions, map[])
  }

  /** The update branch of `handleFormSubmit`. */
  function UpdateRoles(data: seq<RoleRecord>, editingId: RoleKey, values: RoleValues): (r: seq<RoleRecord>)
    ensures |r| == |data|
    ensures forall i :: 0 <= i < |r| && data[i].id != editingId ==> r[i] == data[i]
    ensures forall i :: 0 <= i < |r| && data[i].id == editingId ==> r[i] == Replace(editingId, values)
  {
    seq(|data|, i requires 0 <= i < |data| => if data[i].id == editingId then Replace(data[i].id, values) else data[i])
  }

  /** The create branch of `handleFormSubmit`, with the id rule as written. */
  function AppendRole(data: seq<RoleRecord>, values: RoleValues): (r: seq<RoleRecord>)
    ensures |r| == |data| + 1 && r[..|data|] == data
    ensures r[|data|] == Replace(NextId(data), values)
  {
    data + [Replace(NextId(data), values)]
  }

  /** The create branch with the corrected id rule. */
  function AppendRoleFresh(data: seq<RoleRecord>, values: RoleValues): (r: seq<RoleRecord>)
    ensures |r| == |data| + 1 && r[..|data|] == data
    ensures ValuesOf(r[|data|]) == values
    ensures forall i :: 0 <= i < |data| ==> r[i].id != r[|data|].id
  {
    data + [Replace(NextIdFresh(data), values)]
  }

  /** `handleFormSubmit(values)`: replace the edited role or append a new one, then close the modal. */
  function HandleFormSubmit(st: ListState, values: RoleValues): (st': ListState)
    ensures !st'.modalOpen && st'.editing == st.editing
    ensures st.editing.Some? ==> st'.data == UpdateRoles(st.data, st.editing.value.id, values)
    ensures st.editing.None? ==> st'.data == AppendRole(st.data, values)
    ensures st'.searchText == st.searchText
  {
    var data := if st.editing.Some? then UpdateRoles(st.data, st.editing.value.id, values) else AppendRole(st.data, values);
    st.(data := data, modalOpen := false)
  }

  /** `handleFormSubmit` with the corrected id rule. */
  function HandleFormSubmitFresh(st: ListState, values: RoleValues): (st': ListState)
    ensures !st'.modalOpen && st'.editing == st.editing
    ensures st.editing.Some? ==> st'.data == UpdateRoles(st.data, st.editing.value.id, values)
    ensures st.editing.None? ==> st'.data == AppendRoleFresh(st.data, values)
    ensures st'.searchText == st.searchText
  {
    var data := if st.editing.Some? then UpdateRoles(st.data, st.editing.value.id, values) else AppendRoleFresh(st.data, values);
    st.(data := data, modalOpen := false)
  }

  /** Editing is a replacement, not a merge: a role's extra fields are gone after it is saved through the form. */
  lemma EditDropsExtraFields(st: ListState, i: int, v: RoleValues)
    requires 0 <= i < |st.data| && st.editing == Some(st.data[i])
    ensures HandleFormSubmit(st, v).data[i].extra == map[]
    ensures ValuesOf(HandleFormSubmit(st, v).data[i]) == v && HandleFormSubmit(st, v).data[i].id == st.data[i].id
  {
  }

  /** As written: adding two roles to an empty list gives both the id minus infinity. */
  lemma EmptyListRepeatsId(v1: RoleValues, v2: RoleValues)
    ensures var st := HandleFormSubmit(HandleFormSubmit(ListState([], "", true, None), v1), v2);
      |st.data| == 2 && st.data[0].id == MinusInfinity && st.data[1].id == MinusInfinity
  {
    var d1 := AppendRole([], v1);
    NextIdWithoutFiniteIds(d1);
  }

  ghost predicate DistinctIds(data: seq<RoleRecord>) {
    forall j, k :: 0 <= j < k < |data| ==> data[j].id != data[k].id
  }

  /** With the corrected rule, submitting keeps ids unique. */
  lemma SubmitFreshKeepsDistinctIds(st: ListState, v: RoleValues)
    requires DistinctIds(st.data)
    ensures DistinctIds(HandleFormSubmitFresh(st, v).data)
  {
    var r := HandleFormSubmitFresh(st, v).data;
    if st.editing.Some? {
      forall j, k | 0 <= j < k < |r|
        ensures r[j].id != r[k].id
      {
        assert r[j].id == st.data[j].id && r[k].id == st.data[k].id;
      }
    }
  }

  /** Deleting the first seed role leaves Manager; a new role then gets id 3. */
  lemma SeedDeleteAdmin()
    ensures HandleDelete(InitialState.(modalOpen := true), SeedRoles[0]).data == [SeedRoles[1]]
  {
    Seqs.FilterRemovesOne(SeedRoles, IdIsNot(SeedRoles[0].id), 0);
    assert SeedRoles[..0] + SeedRoles[1..] == [SeedRoles[1]];
  }

  lemma NextIdAfterAdminDeleted()
    ensures NextId([SeedRoles[1]]) == Finite(3)
  {
    assert MaxId([SeedRoles[1]]) == Finite(2);
  }

  lemma SeedDeleteThenAdd(v: RoleValues)
    ensures var st := HandleFormSubmit(HandleDelete(InitialState.(modalOpen := true), SeedRoles[0]), v);
      |st.data| == 2 && st.data[0] == SeedRoles[1] && st.data[1].id == Finite(3)
  {
    SeedDeleteAdmin();
    NextIdAfterAdminDeleted();
  }
}

=== FILE: role_page.dfy ===
/**
 The role management page. Its save, delete and filter are the shared
 master-data operations (module MasterData); this module holds its seed and
 what the filter does on it.
 */
module RolePage {
  import opened Text
  import Seqs
  import opened MasterData

  const SeedRoles: seq<MasterRecord> := [
    MasterRecord(1, "ADMIN", "Administrator", true),
    MasterRecord(2, "MGR", "Manager", true),
    MasterRecord(3, "USR", "User", false)
  ]

  lemma AdministratorMisses()
    ensures !MatchesSearch(SeedRoles[0], "usr")
  {
    LetterAbsentNotContainedIgnoringCase("Administrator", "usr");
    LetterAbsentNotContainedIgnoringCase("ADMIN", "usr");
  }

  lemma ManagerMisses()
    ensures !MatchesSearch(SeedRoles[1], "usr")
  {
    LetterAbsentNotContainedIgnoringCase("Manager", "usr");
    LetterAbsentNotContainedIgnoringCase("MGR", "usr");
  }

  lemma UserMatches()
    ensures MatchesSearch(SeedRoles[2], "usr")
  {
    assert ToLower("usr") == "usr" && ToLower("USR") == "usr";
    assert "usr" <= "usr";
  }

  /** "usr" among inactive roles finds User, through its code. */
  lemma SeedInactiveExample()
    ensures FilterRecords(SeedRoles, "usr", "inactive") == [SeedRoles[2]]
  {
    AdministratorMisses();
    ManagerMisses();
    UserMatches();
    assert SeedRoles == [SeedRoles[0], SeedRoles[1], SeedRoles[2]];
    Seqs.FilterOfThree(SeedRoles[0], SeedRoles[1], SeedRoles[2], (x: MasterRecord) => Matches(x, "usr", "inactive"));
  }

  /** "usr" among active roles finds nothing: the one match is inactive. */
  lemma SeedActiveExample()
    ensures FilterRecords(SeedRoles, "usr", "active") == []
  {
    AdministratorMisses();
    ManagerMisses();
    UserMatches();
    assert SeedRoles == [SeedRoles[0], SeedRoles[1], SeedRoles[2]];
    Seqs.FilterOfThree(SeedRoles[0], SeedRoles[1], SeedRoles[2], (x: MasterRecord) => Matches(x, "usr", "active"));
  }

  lemma SeedIsDense()
    ensures DenseIds(SeedRoles)
  {
  }

  /** As on the branch page, deleting a role other than the last and adding one repeats id 3. */
  lemma SeedIdCollision(k: int, d: FormData)
    requires k == 1 || k == 2
    ensures var r := Create(Delete(SeedRoles, k), d);
      |r| == 3 && r[1].id == 3 && r[2].id == 3
  {
    SeedIsDense();
    DeleteThenCreateRepeatsId(SeedRoles, k, d);
  }
}

=== FILE: schedule_calendar.dfy ===
/**
 The calendar view of driver schedules: one event per schedule, the colour of
 an event, the detail panel of the selected event with its Start/End Trip
 button, and the view-mode toggle.

 The detail panel shows the schedule object captured when the event was
 selected; pressing its button updates the page's list but not that captured
 copy. `ClickPanelAction` models this as written; `ClickPanelActionRefreshed`
 re-reads the selection from the updated list.
 */
module ScheduleCalendar {
  import opened Wrappers
  import opened Schedules
  import opened ScheduleList

  /** A react-big-calendar event. `start`/`end` are the parsed dates (`None` for an invalid date). */
  datatype CalendarEvent = CalendarEvent(id: int, title: string, start: Option<int>, end: Option<int>, resource: Schedule)

  /** `getCalendarEvents`, with `new Date(text)` supplied as `dateOf`. */
  function Events(schedules: seq<Schedule>, dateOf: string -> Option<int>): (evs: seq<CalendarEvent>)
    ensures |evs| == |schedules|
    ensures forall i :: 0 <= i < |evs| ==>
      && evs[i].id == schedules[i].id
      && evs[i].title == schedules[i].orderNumber + " - " + schedules[i].driverName
      && evs[i].start == dateOf(schedules[i].pickupTime)
      && evs[i].end == dateOf(schedules[i].dropTime)
      && evs[i].resource == schedules[i]
  {
    seq(|schedules|, i requires 0 <= i < |schedules| =>
      var s := schedules[i];
      CalendarEvent(s.id, s.orderNumber + " - " + s.driverName, dateOf(s.pickupTime), dateOf(s.dropTime), s))
  }

  function Resources(evs: seq<CalendarEvent>): seq<Schedule> {
    seq(|evs|, i requires 0 <= i < |evs| => evs[i].resource)
  }

  /** Nothing is lost or reordered: the events' resources are exactly the input schedules. */
  lemma ResourcesOfEvents(schedules: seq<Schedule>, dateOf: string -> Option<int>)
    ensures Resources(Events(schedules, dateOf)) == schedules
  {
  }

  /** `handleEventSelect`: the panel shows the event's schedule. */
  function SelectEvent(ev: CalendarEvent): (selected: Option<Schedule>)
    ensures selected.Some? && selected.value == ev.resource
  {
    Some(ev.resource)
  }

  /** The button in the detail panel, if any. */
  function PanelAction(selected: Option<Schedule>): (a: Option<TripAction>)
    ensures selected.None? ==> a.None?
    ensures selected.Some? ==> a == OfferedAction(selected.value.status)
  {
    if selected.None? then None else OfferedAction(selected.value.status)
  }

  /** The class of an event: green for Arrived, blue for Departed, gray otherwise. */
  function EventClass(status: string): (c: string)
    ensures status == Arrived ==> c == "bg-green-200"
    ensures status == Departed ==> c == "bg-blue-200"
    ensures status != Arrived && status != Departed ==> c == "bg-gray-200"
  {
    "bg-" + ColourName(StatusColour(status)) + "-200"
  }

  /** The toggle group forwards a truthy new mode and ignores deselection (`null`) and the empty string. */
  function ChangeViewMode(current: string, newMode: Option<string>): (mode: string)
    ensures newMode.None? || newMode == Some("") ==> mode == current
    ensures newMode.Some? && newMode.value != "" ==> mode == newMode.value
  {
    if newMode.Some? && newMode.value != "" then newMode.value else current
  }

  // ---------------------------------------------------------------------------
  // The panel button composed with the page's update
  // ---------------------------------------------------------------------------

  /** The page's schedules as the calendar receives them, and the panel's selection. */
  datatype CalendarView = CalendarView(schedules: seq<Schedule>, selected: Option<Schedule>)

  /** As written: the button sends its status for the selected id; the selection itself is not refreshed. */
  function ClickPanelAction(v: CalendarView, now: string): (w: CalendarView)
    ensures w.selected == v.selected
    ensures PanelAction(v.selected).None? ==> w.schedules == v.schedules
    ensures PanelAction(v.selected).Some? ==>
      w.schedules == UpdateStatus(v.schedules, v.selected.value.id, PanelAction(v.selected).value.newStatus, now)
  {
    match PanelAction(v.selected)
    case None => v
    case Some(a) => v.(schedules := UpdateStatus(v.schedules, v.selected.value.id, a.newStatus, now))
  }

  /**
   As written, a selected pending trip keeps offering Start Trip after it has
   started, and a second press re-stamps the departure time: the first stamp is lost.
   */
  lemma StalePanelRestampsDeparture(schedules: seq<Schedule>, i: int, t1: string, t2: string)
    requires 0 <= i < |schedules| && schedules[i].status == Pending
    ensures var w := ClickPanelAction(ClickPanelAction(CalendarView(schedules, Some(schedules[i])), t1), t2);
      && |w.schedules| == |schedules|
      && w.schedules[i].status == Departed
      && w.schedules[i].departureTime == Some(t2)
      && PanelAction(w.selected) == Some(TripAction("Start Trip", Departed))
  {
  }

  /** The first schedule with the given id, as `Array.prototype.find` returns it. */
  function FindById(schedules: seq<Schedule>, id: int): (r: Option<Schedule>)
    ensures r.Some? ==> r.value in schedules && r.value.id == id
    ensures r.Some? ==> exists i :: (0 <= i < |schedules| && schedules[i] == r.value
      && forall j :: 0 <= j < i ==> schedules[j].id != id)
    ensures r.None? <==> forall i :: 0 <= i < |schedules| ==> schedules[i].id != id
    decreases |schedules|
  {
    if |schedules| == 0 then None
    else if schedules[0].id == id then Some(schedules[0])
    else
      var r := FindById(schedules[1..], id);
      assert r.Some? ==> exists i :: (0 <= i < |schedules| && schedules[i] == r.value
          && forall j :: 0 <= j < i ==> schedules[j].id != id) by {
        if r.Some? {
          var i :| 0 <= i < |schedules[1..]| && schedules[1..][i] == r.value
            && forall j :: 0 <= j < i ==> schedules[1..][j].id != id;
          assert schedules[i + 1] == r.value;
          forall j | 0 <= j < i + 1
            ensures schedules[j].id != id
          {
            if j > 0 {
              assert schedules[j] == schedules[1..][j - 1];
            }
          }
        }
      }
      r
  }

  ghost predicate DistinctIds(schedules: seq<Schedule>) {
    forall j, k :: 0 <= j < k < |schedules| ==> schedules[j].id != schedules[k].id
  }

  lemma {:induction false} FindByIdDistinct(schedules: seq<Schedule>, i: int)
    requires DistinctIds(schedules) && 0 <= i < |schedules|
    ensures FindById(schedules, schedules[i].id) == Some(schedules[i])
    decreases |schedules|
  {
    if i > 0 {
      assert schedules[0].id != schedules[i].id;
      assert DistinctIds(schedules[1..]);
      FindByIdDistinct(schedules[1..], i - 1);
    }
  }

  /** Corrected: after the update the panel re-reads the selected schedule from the list by id. */
  function ClickPanelActionRefreshed(v: CalendarView, now: string): (w: CalendarView)
    ensures PanelAction(v.selected).None? ==> w == v
    ensures PanelAction(v.selected).Some? ==> (
      && w.schedules == UpdateStatus(v.schedules, v.selected.value.id, PanelAction(v.selected).value.newStatus, now)
      && (w.selected.Some? ==> w.selected.value in w.schedules && w.selected.value.id == v.selected.value.id)
      && (w.selected.None? <==> forall i :: 0 <= i < |w.schedules| ==> w.schedules[i].id != v.selected.value.id))
  {
    match PanelAction(v.selected)
    case None => v
    case Some(a) =>
      var schedules := UpdateStatus(v.schedules, v.selected.value.id, a.newStatus, now);
      CalendarView(schedules, FindById(schedules, v.selected.value.id))
  }

  function RunPanelRefreshed(v: CalendarView, nows: seq<string>): CalendarView
    decreases |nows|
  {
    if |nows| == 0 then v else RunPanelRefreshed(ClickPanelActionRefreshed(v, nows[0]), nows[1..])
  }

  /** One press of the refreshed panel's button steps the selected row and re-selects it; ids stay unique. */
  lemma RefreshedPanelStep(v: CalendarView, i: int, now: string)
    requires DistinctIds(v.schedules) && 0 <= i < |v.schedules|
    requires v.selected == Some(v.schedules[i])
    ensures ClickPanelActionRefreshed(v, now)
         == CalendarView(v.schedules[i := Step(v.schedules[i], now)], Some(Step(v.schedules[i], now)))
    ensures DistinctIds(v.schedules[i := Step(v.schedules[i], now)])
  {
    var s := v.schedules[i];
    var stepped := v.schedules[i := Step(s, now)];
    ClickRowIsStep(v.schedules, i, now);
    assert DistinctIds(stepped) by {
      forall j, k | 0 <= j < k < |stepped|
        ensures stepped[j].id != stepped[k].id
      {
        assert stepped[j].id == v.schedules[j].id && stepped[k].id == v.schedules[k].id;
      }
    }
    if OfferedAction(s.status).Some? {
      FindByIdDistinct(stepped, i);
    } else {
      assert Step(s, now) == s;
      assert stepped == v.schedules;
    }
  }

  /** With the refreshed panel, pressing its button is one life-cycle `Step` of the selected row. */
  lemma {:induction false} RefreshedPanelRunsLifecycle(v: CalendarView, i: int, nows: seq<string>)
    requires DistinctIds(v.schedules) && 0 <= i < |v.schedules|
    requires v.selected == Some(v.schedules[i])
    ensures RunPanelRefreshed(v, nows).schedules == v.schedules[i := Run(v.schedules[i], nows)]
    ensures RunPanelRefreshed(v, nows).selected == Some(Run(v.schedules[i], nows))
    decreases |nows|
  {
    if |nows| == 0 {
      assert v.schedules[i := v.schedules[i]] == v.schedules;
    } else {
      var s := v.schedules[i];
      RefreshedPanelStep(v, i, nows[0]);
      var w := ClickPanelActionRefreshed(v, nows[0]);
      RefreshedPanelRunsLifecycle(w, i, nows[1..]);
      assert w.schedules[i := Run(Step(s, nows[0]), nows[1..])] == v.schedules[i := Run(s, nows)];
    }
  }

  /** Corrected panel: from a fresh pending trip, presses stamp the departure once and then the arrival once. */
  lemma RefreshedPanelStampsOnce(v: CalendarView, i: int, t1: string, t2: string, later: seq<string>)
    requires DistinctIds(v.schedules) && 0 <= i < |v.schedules|
    requires v.selected == Some(v.schedules[i])
    requires v.schedules[i].status == Pending && v.schedules[i].departureTime.None? && v.schedules[i].arrivalTime.None?
    ensures var w := RunPanelRefreshed(v, [t1, t2] + later);
      && |w.schedules| == |v.schedules|
      && w.schedules[i].status == Arrived
      && w.schedules[i].departureTime == Some(t1)
      && w.schedules[i].arrivalTime == Some(t2)
      && PanelAction(w.selected).None?
  {
    RefreshedPanelRunsLifecycle(v, i, [t1, t2] + later);
    TripLifecycle(v.schedules[i], [t1, t2] + later);
  }
}

=== FILE: schedule_list.dfy ===
/**
 The schedule list view: its status and free-text filter, the action it offers
 for each row (Start Trip while Pending, End Trip while Departed, nothing
 otherwise), and the trip life cycle that results from composing that gating
 with the page's status update.
 */
module ScheduleList {
  import opened Wrappers
  import opened Text
  import Seqs
  import opened Schedules

  // ---------------------------------------------------------------------------
  // Filtering
  // ---------------------------------------------------------------------------

  /** The status selector: `"all"` or an exact status. */
  predicate MatchesStatus(s: Schedule, statusFilter: string) {
    statusFilter == "all" || s.status == statusFilter
  }

  /** Case-insensitive substring search over order number, driver name and the two locations. */
  predicate MatchesSearch(s: Schedule, query: string) {
    var q := ToLower(query);
    Contains(ToLower(s.orderNumber), q) || Contains(ToLower(s.driverName), q)
    || Contains(ToLower(s.pickupLocation), q) || Contains(ToLower(s.dropLocation), q)
  }

  /** The view's `getFilteredSchedules`: the ordered subsequence of rows passing both filters. */
  function FilterSchedules(schedules: seq<Schedule>, statusFilter: string, query: string): (r: seq<Schedule>)
    ensures Seqs.IsSubseq(r, schedules)
    ensures forall s ::
              multiset(r)[s] == (if MatchesStatus(s, statusFilter) && MatchesSearch(s, query) then multiset(schedules)[s] else 0)
    ensures forall s :: s in r <==> s in schedules && MatchesStatus(s, statusFilter) && MatchesSearch(s, query)
  {
    Seqs.Filter(schedules, (s: Schedule) => MatchesStatus(s, statusFilter) && MatchesSearch(s, query))
  }

  /** An empty query matches every schedule, so with `"all"` nothing is filtered out. */
  lemma EmptySearchKeepsAll(schedules: seq<Schedule>)
    ensures FilterSchedules(schedules, "all", "") == schedules
  {
    Seqs.FilterKeepsAll(schedules, (s: Schedule) => MatchesStatus(s, "all") && MatchesSearch(s, ""));
  }

  /** Re-filtering a filtered list with the same settings changes nothing. */
  lemma FilterSchedulesIdempotent(schedules: seq<Schedule>, statusFilter: string, query: string)
    ensures FilterSchedules(FilterSchedules(schedules, statusFilter, query), statusFilter, query)
         == FilterSchedules(schedules, statusFilter, query)
  {
    Seqs.FilterIdempotent(schedules, (s: Schedule) => MatchesStatus(s, statusFilter) && MatchesSearch(s, query));
  }

  /** Search is substring search: a schedule matches iff the lower-cased query occurs in one of its four lower-cased fields. */
  lemma MatchesSearchIffOccurs(s: Schedule, query: string)
    ensures MatchesSearch(s, query) <==>
      (exists i :: OccursAt(ToLower(s.orderNumber), ToLower(query), i))
      || (exists i :: OccursAt(ToLower(s.driverName), ToLower(query), i))
      || (exists i :: OccursAt(ToLower(s.pickupLocation), ToLower(query), i))
      || (exists i :: OccursAt(ToLower(s.dropLocation), ToLower(query), i))
  {
    var q := ToLower(query);
    ContainsIffOccurs(ToLower(s.orderNumber), q);
    ContainsIffOccurs(ToLower(s.driverName), q);
    ContainsIffOccurs(ToLower(s.pickupLocation), q);
    ContainsIffOccurs(ToLower(s.dropLocation), q);
  }

  // ---------------------------------------------------------------------------
  // Action gating and the trip life cycle
  // ---------------------------------------------------------------------------

  /** A button in the Actions column and the status it sends. */
  datatype TripAction = TripAction(caption: string, newStatus: string)

  /** The action rendered for a row of the given status (shared with the calendar's detail panel). */
  function OfferedAction(status: string): (a: Option<TripAction>)
    ensures a.Some? <==> status == Pending || status == Departed
    ensures status == Pending ==> a == Some(TripAction("Start Trip", Departed))
    ensures status == Departed ==> a == Some(TripAction("End Trip", Arrived))
  {
    if status == Pending then Some(TripAction("Start Trip", Departed))
    else if status == Departed then Some(TripAction("End Trip", Arrived))
    else None
  }

  /** The intended three-state machine, as a transition relation. */
  ghost predicate LegalTransition(from: string, to: string) {
    (from == Pending && to == Departed) || (from == Departed && to == Arrived)
  }

  /** The views offer exactly the legal transitions: one button per non-terminal state, none for Arrived. */
  lemma OfferedActionsAreLegalTransitions(status: string, to: string)
    ensures LegalTransition(status, to) <==> OfferedAction(status).Some? && OfferedAction(status).value.newStatus == to
    ensures OfferedAction(status).None? <==> status != Pending && status != Departed
  {
  }

  /** Pressing the row's button (if it has one) at time `now`. */
  function ClickRowAction(schedules: seq<Schedule>, row: Schedule, now: string): (r: seq<Schedule>)
    ensures OfferedAction(row.status).None? ==> r == schedules
    ensures |r| == |schedules|
    ensures forall i :: 0 <= i < |r| && schedules[i].id != row.id ==> r[i] == schedules[i]
    ensures OfferedAction(row.status).Some? ==> forall i :: 0 <= i < |r| && schedules[i].id == row.id ==>
      r[i] == ApplyStatus(schedules[i], OfferedAction(row.status).value.newStatus, now)
  {
    match OfferedAction(row.status)
    case None => schedules
    case Some(a) => UpdateStatus(schedules, row.id, a.newStatus, now)
  }

  /** The effect of one offered action on one schedule. */
  function Step(s: Schedule, now: string): (t: Schedule)
    ensures s.status == Pending ==> t == s.(status := Departed, departureTime := Some(now))
    ensures s.status == Departed ==> t == s.(status := Arrived, arrivalTime := Some(now))
    ensures s.status != Pending && s.status != Departed ==> t == s
  {
    match OfferedAction(s.status)
    case None => s
    case Some(a) => ApplyStatus(s, a.newStatus, now)
  }

  /** Pressing the offered action once at each of the given times. */
  function Run(s: Schedule, nows: seq<string>): Schedule
    decreases |nows|
  {
    if |nows| == 0 then s else Run(Step(s, nows[0]), nows[1..])
  }

  /** A schedule whose timestamps agree with its status. */
  ghost predicate TripConsistent(s: Schedule) {
    && (s.status == Pending ==> s.departureTime.None? && s.arrivalTime.None?)
    && (s.status == Departed ==> s.departureTime.Some? && s.arrivalTime.None?)
    && (s.status == Arrived ==> s.departureTime.Some? && s.arrivalTime.Some?)
  }

  /** Offered actions keep timestamps consistent with the status and never overwrite a stamp once set. */
  lemma StepKeepsStamps(s: Schedule, now: string)
    requires TripConsistent(s)
    ensures TripConsistent(Step(s, now))
    ensures s.departureTime.Some? ==> Step(s, now).departureTime == s.departureTime
    ensures s.arrivalTime.Some? ==> Step(s, now).arrivalTime == s.arrivalTime
    ensures LegalTransition(s.status, Step(s, now).status) || Step(s, now) == s
  {
  }

  /**
   Starting from a fresh pending trip, any sequence of offered actions walks
   Pending -> Departed -> Arrived: the first press stamps the departure, the
   second the arrival, and later presses change nothing.
   */
  lemma {:induction false} TripLifecycle(s: Schedule, nows: seq<string>)
    requires s.status == Pending && s.departureTime.None? && s.arrivalTime.None?
    ensures |nows| == 0 ==> Run(s, nows) == s
    ensures |nows| == 1 ==> Run(s, nows) == s.(status := Departed, departureTime := Some(nows[0]))
    ensures |nows| >= 2 ==> Run(s, nows) == s.(status := Arrived, departureTime := Some(nows[0]), arrivalTime := Some(nows[1]))
  {
    if |nows| >= 1 {
      var d := Step(s, nows[0]);
      assert d == s.(status := Departed, departureTime := Some(nows[0]));
      if |nows| >= 2 {
        var a := Step(d, nows[1]);
        assert a == s.(status := Arrived, departureTime := Some(nows[0]), arrivalTime := Some(nows[1]));
        ArrivedIsFinal(a, nows[2..]);
        assert nows[1..][1..] == nows[2..];
      }
    }
  }

  /** No action is offered for an arrived trip, so further presses change nothing. */
  lemma {:induction false} ArrivedIsFinal(s: Schedule, nows: seq<string>)
    requires s.status == Arrived
    ensures Run(s, nows) == s
    decreases |nows|
  {
    if |nows| > 0 {
      ArrivedIsFinal(s, nows[1..]);
    }
  }

  /** On a list with distinct ids, pressing a row's button is one `Step` on that row and nothing else. */
  lemma ClickRowIsStep(schedules: seq<Schedule>, i: int, now: string)
    requires 0 <= i < |schedules|
    requires forall j, k :: 0 <= j < k < |schedules| ==> schedules[j].id != schedules[k].id
    ensures ClickRowAction(schedules, schedules[i], now) == schedules[i := Step(schedules[i], now)]
  {
    var r := ClickRowAction(schedules, schedules[i], now);
    forall j | 0 <= j < |schedules| && j != i
      ensures r[j] == schedules[j]
    {
      assert schedules[j].id != schedules[i].id;
    }
  }

  /** With duplicate ids, starting one trip also rewrites another trip that carries the same id, whatever its status. */
  lemma DuplicateIdsRewriteBothRows(p: Schedule, a: Schedule, now: string)
    requires p.status == Pending && a.status == Arrived && p.id == a.id
    ensures ClickRowAction([p, a], p, now)[1].status == Departed
    ensures ClickRowAction([p, a], p, now)[1].departureTime == Some(now)
  {
  }
}

=== FILE: schedules.dfy ===
/**
 The driver-schedule page: the schedule record, the status update that stamps
 departure and arrival times, and the filter by selected driver.

 The update accepts any status string. The Pending -> Departed -> Arrived
 machine only appears once the views' action gating (module ScheduleList) is
 composed with it.
 */
module Schedules {
  import opened Wrappers
  import Seqs

  const Pending: string := "Pending"
  const Departed: string := "Departed"
  const Arrived: string := "Arrived"

  datatype Schedule = Schedule(
    id: int,
    driverId: int,
    driverName: string,
    orderNumber: string,
    pickupLocation: string,
    pickupTime: string,
    dropLocation: string,
    dropTime: string,
    status: string,
    pickupMapsLink: string,
    dropMapsLink: string,
    departureTime: Option<string>,
    arrivalTime: Option<string>)

  /** The page's initial data: one pending trip. */
  const SeedSchedules: seq<Schedule> := [
    Schedule(1, 1, "John Doe", "ORD001", "Office HQ", "2025-04-20T08:00:00",
             "Airport Terminal 2", "2025-04-20T10:00:00", Pending,
             "https://maps.google.com/?q=-6.2088,106.8456",
             "https://maps.google.com/?q=-6.1258,106.6535", None, None)
  ]

  /** What the update does to a schedule whose id matched. */
  function ApplyStatus(s: Schedule, newStatus: string, now: string): (r: Schedule)
    ensures r.status == newStatus
    ensures r.departureTime == (if newStatus == Departed then Some(now) else s.departureTime)
    ensures r.arrivalTime == (if newStatus == Arrived then Some(now) else s.arrivalTime)
    ensures r.(status := s.status, departureTime := s.departureTime, arrivalTime := s.arrivalTime) == s
  {
    s.(status := newStatus,
       departureTime := if newStatus == Departed then Some(now) else s.departureTime,
       arrivalTime := if newStatus == Arrived then Some(now) else s.arrivalTime)
  }

  /**
   `handleStatusUpdate(scheduleId, newStatus)` with the clock reading `now`
   passed in: every schedule with that id is updated, all others are returned
   as they were, in the same order.
   */
  function UpdateStatus(schedules: seq<Schedule>, scheduleId: int, newStatus: string, now: string): (r: seq<Schedule>)
    ensures |r| == |schedules|
    ensures forall i :: 0 <= i < |r| && schedules[i].id != scheduleId ==> r[i] == schedules[i]
    ensures forall i :: 0 <= i < |r| && schedules[i].id == scheduleId ==>
      r[i].id == scheduleId && r[i].status == newStatus
      && r[i].orderNumber == schedules[i].orderNumber && r[i].driverId == schedules[i].driverId
      && r[i].driverName == schedules[i].driverName
      && r[i].pickupLocation == schedules[i].pickupLocation && r[i].pickupTime == schedules[i].pickupTime
      && r[i].dropLocation == schedules[i].dropLocation && r[i].dropTime == schedules[i].dropTime
      && r[i].pickupMapsLink == schedules[i].pickupMapsLink && r[i].dropMapsLink == schedules[i].dropMapsLink
      && (r[i].departureTime == Some(now) <==> newStatus == Departed || schedules[i].departureTime == Some(now))
      && (newStatus != Departed ==> r[i].departureTime == schedules[i].departureTime)
      && (r[i].arrivalTime == Some(now) <==> newStatus == Arrived || schedules[i].arrivalTime == Some(now))
      && (newStatus != Arrived ==> r[i].arrivalTime == schedules[i].arrivalTime)
  {
    seq(|schedules|, i requires 0 <= i < |schedules| =>
      if schedules[i].id == scheduleId then ApplyStatus(schedules[i], newStatus, now) else schedules[i])
  }

  /** An update naming no schedule in the list gives back the identical list. */
  lemma UpdateUnknownIdIsIdentity(schedules: seq<Schedule>, scheduleId: int, newStatus: string, now: string)
    requires forall i :: 0 <= i < |schedules| ==> schedules[i].id != scheduleId
    ensures UpdateStatus(schedules, scheduleId, newStatus, now) == schedules
  {
  }

  /** The update does not look at the current status: an arrived trip can be sent back to Pending. */
  lemma ArrivedCanBeResetToPending(s: Schedule, now: string)
    requires s.status == Arrived
    ensures UpdateStatus([s], s.id, Pending, now) == [s.(status := Pending)]
  {
  }

  /** Repeating a Departed update re-stamps the departure time: the update alone does not set it once. */
  lemma RepeatedDepartureOverwrites(schedules: seq<Schedule>, scheduleId: int, t1: string, t2: string, i: int)
    requires 0 <= i < |schedules| && schedules[i].id == scheduleId
    ensures UpdateStatus(UpdateStatus(schedules, scheduleId, Departed, t1), scheduleId, Departed, t2)[i].departureTime == Some(t2)
  {
  }

  /** A driver selection counts only when it is truthy: `null` and `0` mean "all drivers". */
  predicate IsDriverSelected(selectedDriver: Option<int>) {
    selectedDriver.Some? && selectedDriver.value != 0
  }

  /** The page's `getFilteredSchedules`: everything, or the ordered subsequence of the selected driver's trips. */
  function FilterByDriver(schedules: seq<Schedule>, selectedDriver: Option<int>): (r: seq<Schedule>)
    ensures !IsDriverSelected(selectedDriver) ==> r == schedules
    ensures IsDriverSelected(selectedDriver) ==>
      Seqs.IsSubseq(r, schedules)
      && (forall s :: multiset(r)[s] == if s.driverId == selectedDriver.value then multiset(schedules)[s] else 0)
  {
    if !IsDriverSelected(selectedDriver) then schedules
    else Seqs.Filter(schedules, (s: Schedule) => s.driverId == selectedDriver.value)
  }

  /** The status badge and calendar colour shared by the three views. */
  datatype Colour = Green | Blue | Gray

  function StatusColour(status: string): (c: Colour)
    ensures c == Green <==> status == Arrived
    ensures c == Blue <==> status == Departed
  {
    if status == Arrived then Green else if status == Departed then Blue else Gray
  }

  function ColourName(c: Colour): string {
    match c
    case Green => "green"
    case Blue => "blue"
    case Gray => "gray"
  }
}

=== FILE: seqs.dfy ===
/**
 `Array.prototype.filter` over immutable sequences, with an independent
 characterisation: the result is an order-preserving subsequence that keeps
 every element satisfying the predicate as often as it occurs, and nothing else.
 */
module Seqs {

  /** `r` can be obtained from `s` by deleting elements, keeping the order. */
  ghost predicate IsSubseq<T>(r: seq<T>, s: seq<T>)
    decreases |s|
  {
    if |r| == 0 then true
    else if |s| == 0 then false
    else (r[0] == s[0] && IsSubseq(r[1..], s[1..])) || IsSubseq(r, s[1..])
  }

  function Filter<T(!new)>(s: seq<T>, p: T -> bool): (r: seq<T>)
    ensures |r| <= |s|
    ensures IsSubseq(r, s)
    ensures forall x {:trigger multiset(r)[x]} :: multiset(r)[x] == if p(x) then multiset(s)[x] else 0
    ensures forall x :: x in r <==> x in s && p(x)
    decreases |s|
  {
    if |s| == 0 then []
    else
      var rest := Filter(s[1..], p);
      assert s == [s[0]] + s[1..];
      assert multiset(s) == multiset{s[0]} + multiset(s[1..]);
      if p(s[0]) then
        assert IsSubseq([s[0]] + rest, s) by {
          assert ([s[0]] + rest)[1..] == rest;
        }
        [s[0]] + rest
      else rest
  }

  /** A filter that rejects nothing returns its input unchanged. */
  lemma {:induction false} FilterKeepsAll<T(!new)>(s: seq<T>, p: T -> bool)
    requires forall i :: 0 <= i < |s| ==> p(s[i])
    ensures Filter(s, p) == s
    decreases |s|
  {
    if |s| > 0 {
      FilterKeepsAll(s[1..], p);
      assert [s[0]] + s[1..] == s;
    }
  }

  /** Filtering twice with the same predicate is filtering once. */
  lemma FilterIdempotent<T(!new)>(s: seq<T>, p: T -> bool)
    ensures Filter(Filter(s, p), p) == Filter(s, p)
  {
    var r := Filter(s, p);
    forall i | 0 <= i < |r|
      ensures p(r[i])
    {
      assert r[i] in r;
    }
    FilterKeepsAll(r, p);
  }

  /** Filtering distributes over concatenation, so the relative order of kept elements is the input order. */
  lemma {:induction false} FilterOfAppend<T(!new)>(a: seq<T>, b: seq<T>, p: T -> bool)
    ensures Filter(a + b, p) == Filter(a, p) + Filter(b, p)
    decreases |a|
  {
    if |a| > 0 {
      assert (a + b)[1..] == a[1..] + b;
      FilterOfAppend(a[1..], b, p);
    } else {
      assert a + b == b;
    }
  }

  /** Filtering out exactly one position removes that element and keeps the rest in order. */
  lemma {:induction false} FilterRemovesOne<T(!new)>(s: seq<T>, p: T -> bool, m: int)
    requires 0 <= m < |s| && !p(s[m])
    requires forall i :: 0 <= i < |s| && i != m ==> p(s[i])
    ensures Filter(s, p) == s[..m] + s[m + 1..]
  {
    var front, mid, back := s[..m], [s[m]], s[m + 1..];
    assert s == (front + mid) + back;
    FilterOfAppend(front + mid, back, p);
    FilterOfAppend(front, mid, p);
    forall i | 0 <= i < |front|
      ensures p(front[i])
    {
      assert front[i] == s[i];
    }
    FilterKeepsAll(front, p);
    forall i | 0 <= i < |back|
      ensures p(back[i])
    {
      assert back[i] == s[m + 1 + i];
    }
    FilterKeepsAll(back, p);
    assert mid[1..] == [];
    assert Filter(mid, p) == Filter(mid[1..], p) == [];
    calc {
      Filter(s, p);
      Filter(front + mid, p) + Filter(back, p);
      (Filter(front, p) + Filter(mid, p)) + Filter(back, p);
      (front + []) + back;
    }
    assert (front + []) + back == s[..m] + s[m + 1..];
  }

  lemma FilterOfOne<T(!new)>(a: T, p: T -> bool)
    ensures Filter([a], p) == if p(a) then [a] else []
  {
    assert [a][1..] == [];
  }

  /** Filtering three elements keeps each one on its own merit, in order. */
  lemma FilterOfThree<T(!new)>(a: T, b: T, c: T, p: T -> bool)
    ensures Filter([a, b, c], p)
         == (if p(a) then [a] else []) + (if p(b) then [b] else []) + (if p(c) then [c] else [])
  {
    assert [a, b, c] == [a] + ([b] + [c]);
    FilterOfAppend([a], [b] + [c], p);
    FilterOfAppend([b], [c], p);
    FilterOfOne(a, p);
    FilterOfOne(b, p);
    FilterOfOne(c, p);
  }

  /** A filter that accepts nothing returns nothing. */
  lemma {:induction false} FilterKeepsNone<T(!new)>(s: seq<T>, p: T -> bool)
    requires forall i :: 0 <= i < |s| ==> !p(s[i])
    ensures Filter(s, p) == []
    decreases |s|
  {
    if |s| > 0 {
      assert forall i :: 0 <= i < |s[1..]| ==> s[1..][i] == s[i + 1];
      FilterKeepsNone(s[1..], p);
    }
  }
}

=== FILE: sidebar.dfy ===
/**
 The sidebar: which menu entries are highlighted for the current path, which
 sub-menus are expanded, and whether the sidebar is open for the window width.

 A menu entry either links to a path or groups sub-items; a group has no path
 of its own (`undefined`). The active test is the string prefix test of
 `startsWith`, not a test on path segments.
 */
module Sidebar {
  import opened Wrappers
  import opened Text

  datatype SubItem = SubItem(key: string, title: string, path: string)

  datatype MenuItem = MenuItem(key: string, title: string, path: Option<string>, subItems: Option<seq<SubItem>>)

  /** Widths below this are the mobile layout. */
  const MobileBreakpoint: int := 768

  const Menu: seq<MenuItem> := [
    MenuItem("dashboard", "Dashboard", Some("/dashboard"), None),
    MenuItem("master", "Master Data", None, Some([
      SubItem("branch", "Cabang", "/master/branch"),
      SubItem("role", "Role/Jabatan", "/master/role"),
      SubItem("employee", "Karyawan", "/master/employee"),
      SubItem("hotel", "Hotel", "/master/hotel"),
      SubItem("room-type", "Tipe Kamar", "/master/room-type"),
      SubItem("ticket", "Tiket", "/master/ticket"),
      SubItem("vehicle-type", "Jenis Kendaraan", "/master/vehicle-type"),
      SubItem("vehicle", "Kendaraan", "/master/vehicle"),
      SubItem("plafon", "Plafon", "/master/plafon"),
      SubItem("mess-room", "Kamar Mess", "/master/mess-room"),
      SubItem("city", "Kota", "/master/city"),
      SubItem("supplier", "Supplier", "/master/supplier")
    ])),
    MenuItem("transaction", "Transaksi", None, Some([
      SubItem("order", "Pesanan/Permintaan Dinas", "/transaction/order"),
      SubItem("driver-schedule", "Penjadwalan Driver", "/transaction/driver-schedule"),
      SubItem("fuel", "Permintaan BBM", "/transaction/fuel"),
      SubItem("mess", "Permintaan Mess", "/transaction/mess"),
      SubItem("evaluation", "Evaluasi", "/transaction/evaluation"),
      SubItem("purchase", "Pembelian", "/transaction/purchase"),
      SubItem("return", "Retur Pembelian", "/transaction/return")
    ])),
    MenuItem("report", "Laporan", Some("/report"), None),
    MenuItem("settings", "Pengaturan", None, Some([
      SubItem("order-approval", "Setting Approval Pesanan", "/settings/order-approval"),
      SubItem("mess-approval", "Setting Approval Mess", "/settings/mess-approval")
    ]))
  ]

  // ---------------------------------------------------------------------------
  // Active entries
  // ---------------------------------------------------------------------------

  /** A path as `startsWith` sees it: a missing path is converted to the text "undefined". */
  function PathText(path: Option<string>): (t: string)
    ensures path.Some? ==> t == path.value
    ensures path.None? ==> t == "undefined"
  {
    path.GetOr("undefined")
  }

  /** Some sub-item's path is a prefix of the current path. */
  predicate SomeSubItemPrefixes(pathname: string, subItems: seq<SubItem>) {
    exists i :: 0 <= i < |subItems| && StartsWith(pathname, subItems[i].path)
  }

  /** `isMenuActive(path, subItems)`. */
  predicate IsMenuActive(pathname: string, path: Option<string>, subItems: seq<SubItem>): (b: bool)
    ensures path == Some(pathname) ==> b
    ensures path != Some(pathname) && |subItems| > 0 ==>
      (b <==> exists i :: 0 <= i < |subItems| && subItems[i].path <= pathname)
    ensures path != Some(pathname) && |subItems| == 0 ==>
      (b <==> PathText(path) <= pathname && path != Some("/"))
  {
    if path == Some(pathname) then true
    else if |subItems| > 0 then SomeSubItemPrefixes(pathname, subItems)
    else StartsWith(pathname, PathText(path)) && path != Some("/")
  }

  /** The highlight of a top-level entry; a missing `subItems` takes the default `[]`. */
  predicate ItemActive(pathname: string, item: MenuItem) {
    IsMenuActive(pathname, item.path, item.subItems.GetOr([]))
  }

  /** A sub-item link is highlighted only on its exact path. */
  predicate SubItemHighlighted(pathname: string, sub: SubItem) {
    pathname == sub.path
  }

  /** An entry is active on its own path, whatever its sub-items. */
  lemma ExactPathActive(pathname: string, subItems: seq<SubItem>)
    ensures IsMenuActive(pathname, Some(pathname), subItems)
  {
  }

  /** Away from its own path, an entry with sub-items is active exactly when some sub-item's path prefixes the current one. */
  lemma GroupActiveIff(pathname: string, path: Option<string>, subItems: seq<SubItem>)
    requires path != Some(pathname) && |subItems| > 0
    ensures IsMenuActive(pathname, path, subItems)
        <==> exists i :: 0 <= i < |subItems| && subItems[i].path <= pathname
  {
  }

  /** An entry without sub-items is active exactly when its path prefixes the current one and is not the root. */
  lemma LeafActiveIff(pathname: string, path: string)
    ensures IsMenuActive(pathname, Some(path), []) <==> path == pathname || (path <= pathname && path != "/")
  {
  }

  /** The root entry lights up on the root alone. */
  lemma RootOnlyOnRoot(pathname: string)
    ensures IsMenuActive(pathname, Some("/"), []) <==> pathname == "/"
  {
  }

  /** The prefix test ignores segment boundaries: "/reports" activates the "/report" entry. */
  lemma ReportsActivatesReport()
    ensures ItemActive("/reports", Menu[3])
    ensures !SubItemHighlighted("/master/branches", Menu[1].subItems.value[0])
    ensures ItemActive("/master/branches", Menu[1])
  {
    assert "/report" <= "/reports";
    assert StartsWith("/master/branches", Menu[1].subItems.value[0].path);
  }

  // ---------------------------------------------------------------------------
  // Expanded sub-menus
  // ---------------------------------------------------------------------------

  /** `expandedMenus[key]`; a key never set reads as `undefined`, which is falsy. */
  predicate IsExpanded(expanded: map<string, bool>, key: string) {
    key in expanded && expanded[key]
  }

  /** `toggleMenu(key)`. */
  function ToggleMenu(expanded: map<string, bool>, key: string): (r: map<string, bool>)
    ensures IsExpanded(r, key) <==> !IsExpanded(expanded, key)
    ensures key in r
    ensures forall k :: k != key ==> (k in r <==> k in expanded) && (k in r ==> r[k] == expanded[k])
  {
    expanded[key := !IsExpanded(expanded, key)]
  }

  /** Toggling the same menu twice restores every menu's expansion. */
  lemma ToggleTwice(expanded: map<string, bool>, key: string, other: string)
    ensures IsExpanded(ToggleMenu(ToggleMenu(expanded, key), key), other) <==> IsExpanded(expanded, other)
  {
  }

  /** The auto-expand condition for one entry. */
  predicate Expands(pathname: string, item: MenuItem) {
    item.subItems.Some? && SomeSubItemPrefixes(pathname, item.subItems.value)
  }

  /** The auto-expand effect: every entry whose sub-item prefixes the path is set expanded, in menu order. */
  function AutoExpand(menu: seq<MenuItem>, pathname: string, expanded: map<string, bool>): (r: map<string, bool>)
    ensures forall k :: k in expanded ==> k in r
    ensures forall k :: IsExpanded(expanded, k) ==> IsExpanded(r, k)
    ensures forall i :: 0 <= i < |menu| && Expands(pathname, menu[i]) ==> IsExpanded(r, menu[i].key)
    ensures forall k :: k in r && (k !in expanded || r[k] != expanded[k]) ==>
      r[k] && exists i :: 0 <= i < |menu| && menu[i].key == k && Expands(pathname, menu[i])
    decreases |menu|
  {
    if |menu| == 0 then expanded
    else
      var next := if Expands(pathname, menu[0]) then expanded[menu[0].key := true] else expanded;
      var r := AutoExpand(menu[1..], pathname, next);
      forall k | k in r && (k !in expanded || r[k] != expanded[k])
        ensures r[k] && exists i :: 0 <= i < |menu| && menu[i].key == k && Expands(pathname, menu[i])
      {
        if k in next && r[k] == next[k] && (k !in expanded || next[k] != expanded[k]) {
          assert menu[0].key == k && Expands(pathname, menu[0]);
        } else {
          var i :| 0 <= i < |menu[1..]| && menu[1..][i].key == k && Expands(pathname, menu[1..][i]);
          assert menu[i + 1] == menu[1..][i];
        }
      }
      forall i | 0 <= i < |menu| && Expands(pathname, menu[i])
        ensures IsExpanded(r, menu[i].key)
      {
        if i > 0 {
          assert menu[i] == menu[1..][i - 1];
        }
      }
      r
  }

  /** Auto-expanding for the same path twice changes nothing more. */
  lemma AutoExpandIdempotent(menu: seq<MenuItem>, pathname: string, expanded: map<string, bool>, k: string)
    ensures IsExpanded(AutoExpand(menu, pathname, AutoExpand(menu, pathname, expanded)), k)
        <==> IsExpanded(AutoExpand(menu, pathname, expanded), k)
  {
  }

  /** For a group without a path of its own, being auto-expanded and being highlighted coincide. */
  lemma GroupExpandsIffActive(pathname: string, item: MenuItem)
    requires item.path.None? && item.subItems.Some? && |item.subItems.value| > 0
    ensures Expands(pathname, item) <==> ItemActive(pathname, item)
  {
  }

  /** Opening a driver-schedule page expands the Transaksi group. */
  lemma DriverScheduleExpandsTransaction(expanded: map<string, bool>)
    ensures IsExpanded(AutoExpand(Menu, "/transaction/driver-schedule", expanded), "transaction")
  {
    assert StartsWith("/transaction/driver-schedule", Menu[2].subItems.value[1].path);
    assert Expands("/transaction/driver-schedule", Menu[2]);
  }

  // ---------------------------------------------------------------------------
  // Open and mobile state
  // ---------------------------------------------------------------------------

  datatype ViewState = ViewState(isMobile: bool, isOpen: bool)

  /** The resize handler, also run once on mount. */
  function Resize(width: int): (v: ViewState)
    ensures v.isMobile <==> width < MobileBreakpoint
    ensures v.isOpen <==> !v.isMobile
  {
    if width < MobileBreakpoint then ViewState(true, false) else ViewState(false, true)
  }

  /** `toggleSidebar`: the menu button and the overlay both flip `isOpen`. */
  function ToggleSidebar(v: ViewState): (r: ViewState)
    ensures r.isMobile == v.isMobile && r.isOpen == !v.isOpen
  {
    v.(isOpen := !v.isOpen)
  }

  /** The dark overlay is shown over an open sidebar on mobile. */
  predicate OverlayShown(v: ViewState) {
    v.isMobile && v.isOpen
  }

  /** A resize never leaves the overlay up; on mobile, opening the sidebar shows it and clicking it closes the sidebar. */
  lemma OverlayAfterResize(width: int)
    ensures !OverlayShown(Resize(width))
    ensures width < MobileBreakpoint ==> OverlayShown(ToggleSidebar(Resize(width)))
    ensures ToggleSidebar(ToggleSidebar(Resize(width))) == Resize(width)
  {
  }
}

=== FILE: text.dfy ===
/**
 The few JavaScript string operations the application relies on, stated over
 `seq<char>`: ASCII case mapping (`toLowerCase`/`toUpperCase`), `trim`,
 `includes`, `startsWith`, `split` on a single character, decimal printing of
 numbers (template literals, `toString`) and `parseInt`.
 */
module Text {
  import opened Wrappers

  // ---------------------------------------------------------------------------
  // Character classes
  // ---------------------------------------------------------------------------

  predicate IsAsciiUpper(c: char) { 'A' <= c <= 'Z' }

  predicate IsAsciiLower(c: char) { 'a' <= c <= 'z' }

  predicate IsDigit(c: char) { '0' <= c <= '9' }

  /** The class `[A-Za-z0-9]` of a regular expression. */
  predicate IsAlnum(c: char) { IsAsciiUpper(c) || IsAsciiLower(c) || IsDigit(c) }

  /** JavaScript's WhiteSpace and LineTerminator code points: what `trim` and `parseInt` skip. */
  predicate IsSpace(c: char) {
    var k := c as int;
    k == 0x09 || k == 0x0A || k == 0x0B || k == 0x0C || k == 0x0D || k == 0x20
    || k == 0xA0 || k == 0x1680 || (0x2000 <= k <= 0x200A) || k == 0x2028 || k == 0x2029
    || k == 0x202F || k == 0x205F || k == 0x3000 || k == 0xFEFF
  }

  // ---------------------------------------------------------------------------
  // Case mapping
  // ---------------------------------------------------------------------------

  function LowerChar(c: char): char {
    if IsAsciiUpper(c) then (c as int + 32) as char else c
  }

  function UpperChar(c: char): char {
    if IsAsciiLower(c) then (c as int - 32) as char else c
  }

  function ToLower(s: string): string {
    seq(|s|, i requires 0 <= i < |s| => LowerChar(s[i]))
  }

  function ToUpper(s: string): string {
    seq(|s|, i requires 0 <= i < |s| => UpperChar(s[i]))
  }

  /** Upper-casing first does not change what a case-insensitive comparison sees. */
  lemma LowerOfUpper(s: string)
    ensures ToLower(ToUpper(s)) == ToLower(s)
  {
    forall i | 0 <= i < |s|
      ensures ToLower(ToUpper(s))[i] == ToLower(s)[i]
    {
      assert ToUpper(s)[i] == UpperChar(s[i]);
    }
  }

  // ---------------------------------------------------------------------------
  // Substrings and prefixes
  // ---------------------------------------------------------------------------

  /** `needle` occurs in `hay` starting at index `i`. */
  ghost predicate OccursAt(hay: string, needle: string, i: int) {
    0 <= i && i + |needle| <= |hay| && hay[i..i + |needle|] == needle
  }

  /** `hay.includes(needle)`. */
  predicate Contains(hay: string, needle: string)
    decreases |hay|
  {
    needle <= hay || (|hay| > 0 && Contains(hay[1..], needle))
  }

  /** `includes` holds exactly when the needle occurs at some offset. */
  lemma {:induction false} ContainsIffOccurs(hay: string, needle: string)
    ensures Contains(hay, needle) <==> exists i :: OccursAt(hay, needle, i)
    decreases |hay|
  {
    if needle <= hay {
      assert OccursAt(hay, needle, 0);
    } else if |hay| > 0 {
      ContainsIffOccurs(hay[1..], needle);
      if Contains(hay[1..], needle) {
        var i :| OccursAt(hay[1..], needle, i);
        assert hay[1..][i..i + |needle|] == hay[i + 1..i + 1 + |needle|];
        assert OccursAt(hay, needle, i + 1);
      }
      if exists i :: OccursAt(hay, needle, i) {
        var i :| OccursAt(hay, needle, i);
        assert i > 0;
        assert hay[1..][i - 1..i - 1 + |needle|] == hay[i..i + |needle|];
        assert OccursAt(hay[1..], needle, i - 1);
      }
    }
  }

  /** A needle whose first character never occurs in the haystack is not contained in it. */
  lemma {:induction false} FirstCharAbsentNotContained(hay: string, needle: string)
    requires |needle| > 0 && forall i :: 0 <= i < |hay| ==> hay[i] != needle[0]
    ensures !Contains(hay, needle)
    decreases |hay|
  {
    if |hay| == 0 {
      assert !(needle <= hay);
    } else {
      assert hay[0] != needle[0];
      assert !(needle <= hay);
      assert forall i :: 0 <= i < |hay[1..]| ==> hay[1..][i] != needle[0];
      FirstCharAbsentNotContained(hay[1..], needle);
    }
  }

  /** A case-insensitive search misses when the needle's first letter occurs in neither case in the haystack. */
  lemma LetterAbsentNotContainedIgnoringCase(hay: string, needle: string)
    requires |needle| > 0 && IsAsciiLower(needle[0])
    requires forall i :: 0 <= i < |hay| ==> hay[i] != needle[0] && hay[i] != UpperChar(needle[0])
    ensures !Contains(ToLower(hay), ToLower(needle))
  {
    assert ToLower(needle)[0] == needle[0];
    FirstCharAbsentNotContained(ToLower(hay), ToLower(needle));
  }

  /** `s.startsWith(prefix)`. */
  predicate StartsWith(s: string, prefix: string) {
    prefix <= s
  }

  // ---------------------------------------------------------------------------
  // trim
  // ---------------------------------------------------------------------------

  /** Drops the longest run of white space at the front. */
  function TrimStart(s: string): (r: string)
    ensures |r| <= |s| && r == s[|s| - |r|..]
    ensures forall i :: 0 <= i < |s| - |r| ==> IsSpace(s[i])
    ensures |r| > 0 ==> !IsSpace(r[0])
    decreases |s|
  {
    if |s| > 0 && IsSpace(s[0]) then TrimStart(s[1..]) else s
  }

  /** Drops the longest run of white space at the back. */
  function TrimEnd(s: string): (r: string)
    ensures |r| <= |s| && r == s[..|r|]
    ensures forall i :: |r| <= i < |s| ==> IsSpace(s[i])
    ensures |r| > 0 ==> !IsSpace(r[|r| - 1])
    decreases |s|
  {
    if |s| > 0 && IsSpace(s[|s| - 1]) then TrimEnd(s[..|s| - 1]) else s
  }

  /** `s.trim()`: empty exactly when `s` is nothing but white space. */
  function Trim(s: string): (r: string)
    ensures |r| == 0 <==> forall i :: 0 <= i < |s| ==> IsSpace(s[i])
  {
    var t := TrimStart(s);
    var r := TrimEnd(t);
    assert (forall i :: 0 <= i < |s| ==> IsSpace(s[i])) ==> |t| == 0 by {
      if |t| > 0 {
        assert t[0] == s[|s| - |t|];
      }
    }
    r
  }

  // ---------------------------------------------------------------------------
  // split
  // ---------------------------------------------------------------------------

  /** `s.split(d)` for a one-character separator. */
  function Split(s: string, d: char): (parts: seq<string>)
    ensures |parts| >= 1
    ensures forall i :: 0 <= i < |parts| ==> d !in parts[i]
    ensures d !in s ==> parts == [s]
    decreases |s|
  {
    if |s| == 0 then [""]
    else
      var rest := Split(s[1..], d);
      if s[0] == d then [""] + rest
      else
        assert d !in s ==> d !in s[1..] && [s[0]] + s[1..] == s;
        [[s[0]] + rest[0]] + rest[1..]
  }

  /** `parts.join(d)`. */
  function Join(parts: seq<string>, d: char): string
    requires |parts| >= 1
    decreases |parts|
  {
    if |parts| == 1 then parts[0] else parts[0] + [d] + Join(parts[1..], d)
  }

  /** Splitting loses nothing: joining the parts back gives the original string. */
  lemma {:induction false} JoinSplit(s: string, d: char)
    ensures Join(Split(s, d), d) == s
    decreases |s|
  {
    if |s| > 0 {
      var rest := Split(s[1..], d);
      JoinSplit(s[1..], d);
      if s[0] == d {
        assert Split(s, d)[1..] == rest;
      } else if |rest| == 1 {
        assert Split(s, d) == [[s[0]] + rest[0]];
      } else {
        var parts := Split(s, d);
        assert parts[1..] == rest[1..];
        assert Join(rest, d) == rest[0] + [d] + Join(rest[1..], d);
      }
    }
  }

  /** A leading field free of the separator becomes the first part of the split. */
  lemma {:induction false} SplitLeadingField(a: string, d: char, b: string)
    requires d !in a
    ensures Split(a + [d] + b, d) == [a] + Split(b, d)
    decreases |a|
  {
    var s := a + [d] + b;
    if |a| == 0 {
      assert s[1..] == b;
    } else {
      assert s[1..] == a[1..] + [d] + b;
      SplitLeadingField(a[1..], d, b);
      assert [a[0]] + a[1..] == a;
    }
  }

  // ---------------------------------------------------------------------------
  // Decimal printing and parseInt
  // ---------------------------------------------------------------------------

  function DigitChar(d: nat): char
    requires d < 10
  {
    ('0' as int + d) as char
  }

  /** Decimal notation of a non-negative integer, without leading zeros. */
  function NatToString(n: nat): (s: string)
    ensures |s| >= 1
    ensures forall i :: 0 <= i < |s| ==> IsDigit(s[i])
    ensures s[0] == '0' ==> n == 0
    decreases n
  {
    if n < 10 then [DigitChar(n)] else NatToString(n / 10) + [DigitChar(n % 10)]
  }

  /**
   A number printed by a template literal or `toString()`, as plain decimal
   text. JavaScript prints this way below 10^21 in magnitude; from 10^21 on it
   uses exponent form, which is outside the model.
   */
  function IntToString(i: int): (s: string)
    ensures |s| >= 1
    ensures s[0] == '-' <==> i < 0
    ensures forall k :: (if i < 0 then 1 else 0) <= k < |s| ==> IsDigit(s[k])
  {
    if i < 0 then "-" + NatToString(-i) else NatToString(i)
  }

  /** The value of a digit or letter in radices up to 36. */
  function DigitValue(c: char): nat {
    if IsDigit(c) then c as nat - '0' as nat
    else if IsAsciiLower(c) then c as nat - 'a' as nat + 10
    else if IsAsciiUpper(c) then c as nat - 'A' as nat + 10
    else 36
  }

  predicate IsRadixDigit(c: char, radix: nat) {
    DigitValue(c) < radix
  }

  /** The longest prefix of `s` made of digits of the radix. */
  function LeadingDigits(s: string, radix: nat): (ds: string)
    ensures ds <= s
    ensures forall i :: 0 <= i < |ds| ==> IsRadixDigit(ds[i], radix)
    ensures |ds| < |s| ==> !IsRadixDigit(s[|ds|], radix)
    decreases |s|
  {
    if |s| > 0 && IsRadixDigit(s[0], radix) then [s[0]] + LeadingDigits(s[1..], radix) else []
  }

  function DigitsValue(ds: string, radix: nat): nat
    decreases |ds|
  {
    if |ds| == 0 then 0 else DigitsValue(ds[..|ds| - 1], radix) * radix + DigitValue(ds[|ds| - 1])
  }

  /**
   `parseInt(s)` with no radix: skip leading white space, read an optional sign,
   switch to radix 16 after `0x`/`0X`, then read the longest run of digits.
   `None` is `NaN` (no digit at all).
   */
  function ParseInt(s: string): Option<int> {
    var t := TrimStart(s);
    var negative := |t| > 0 && t[0] == '-';
    var u := if |t| > 0 && (t[0] == '-' || t[0] == '+') then t[1..] else t;
    var hex := |u| >= 2 && u[0] == '0' && (u[1] == 'x' || u[1] == 'X');
    var radix := if hex then 16 else 10;
    var digits := LeadingDigits(if hex then u[2..] else u, radix);
    if |digits| == 0 then None
    else if negative then Some(-(DigitsValue(digits, radix) as int))
    else Some(DigitsValue(digits, radix))
  }

  /**
   What the first character after the white space decides: nothing left or
   any character but a digit or a sign gives `NaN`; a digit that does not open
   a `0x` prefix gives a number that is not negative; a negative number needs a
   minus sign.
   */
  lemma ParseIntFirstChar(s: string)
    ensures |TrimStart(s)| == 0 ==> ParseInt(s).None?
    ensures var t := TrimStart(s);
      |t| > 0 && !IsDigit(t[0]) && t[0] != '-' && t[0] != '+' ==> ParseInt(s).None?
    ensures var t := TrimStart(s);
      |t| > 0 && IsDigit(t[0]) && !(|t| >= 2 && t[0] == '0' && (t[1] == 'x' || t[1] == 'X'))
      ==> ParseInt(s).Some? && ParseInt(s).value >= 0
    ensures ParseInt(s).Some? && ParseInt(s).value < 0 ==> |TrimStart(s)| > 0 && TrimStart(s)[0] == '-'
  {
    FirstDecimalDigit(TrimStart(s));
  }

  /** A decimal run is non-empty exactly when the string starts with a digit. */
  lemma FirstDecimalDigit(t: string)
    ensures |t| > 0 && t[0] != '-' && t[0] != '+' ==> (|LeadingDigits(t, 10)| > 0 <==> IsDigit(t[0]))
  {
    if |t| == 0 || t[0] == '-' || t[0] == '+' {
      return;
    }
    var c := t[0];
    if IsDigit(c) {
      assert DigitValue(c) < 10;
    } else if IsAsciiLower(c) || IsAsciiUpper(c) {
      assert DigitValue(c) >= 10;
    } else {
      assert DigitValue(c) == 36;
    }
  }

  lemma {:induction false} LeadingDigitsOfDecimal(s: string)
    requires forall i :: 0 <= i < |s| ==> IsDigit(s[i])
    ensures LeadingDigits(s, 10) == s
    decreases |s|
  {
    if |s| > 0 {
      LeadingDigitsOfDecimal(s[1..]);
    }
  }

  lemma {:induction false} DigitsValueOfNatToString(n: nat)
    ensures DigitsValue(NatToString(n), 10) == n
    decreases n
  {
    if n >= 10 {
      var s := NatToString(n);
      assert s[..|s| - 1] == NatToString(n / 10);
      DigitsValueOfNatToString(n / 10);
    }
  }

  /** Reading back a printed non-negative number gives the number. */
  lemma ParseNatToString(n: nat)
    ensures ParseInt(NatToString(n)) == Some(n)
  {
    var s := NatToString(n);
    assert IsDigit(s[0]) && !IsSpace(s[0]);
    assert TrimStart(s) == s;
    assert !(s[0] == '-' || s[0] == '+');
    LeadingDigitsOfDecimal(s);
    DigitsValueOfNatToString(n);
    assert s[0] == '0' ==> |s| == 1;
  }

  /** Reading back a printed negative number gives the number. */
  lemma ParseNegatedNatToString(n: nat)
    requires n > 0
    ensures ParseInt("-" + NatToString(n)) == Some(-(n as int))
  {
    var m := NatToString(n);
    var s := "-" + m;
    assert s[0] == '-' && !IsSpace(s[0]);
    var t := TrimStart(s);
    assert t == s;
    var u := t[1..];
    assert u == m;
    assert m[0] != '0';
    assert !(|u| >= 2 && u[0] == '0');
    LeadingDigitsOfDecimal(m);
    var digits := LeadingDigits(u, 10);
    assert digits == m;
    DigitsValueOfNatToString(n);
    assert DigitsValue(digits, 10) == n;
  }

  /** Reading back any printed integer gives the integer: printing is injective. */
  lemma ParseIntToString(i: int)
    ensures ParseInt(IntToString(i)) == Some(i)
  {
    if i < 0 {
      ParseNegatedNatToString(-i);
    } else {
      ParseNatToString(i);
    }
  }

  lemma IntToStringInjective(i: int, j: int)
    requires IntToString(i) == IntToString(j)
    ensures i == j
  {
    ParseIntToString(i);
    ParseIntToString(j);
  }
}

=== FILE: topbar.dfy ===
/**
 The top bar: after loading the current user and their branches it picks the
 active branch from the stored `activeBranchId` (falling back to the first
 branch), switches branch, and logs out. `localStorage` is a map.
 */
module TopBar {
  import opened Wrappers
  import opened Text
  import MockApi

  const ActiveBranchKey: string := "activeBranchId"

  /** `localStorage.getItem(key)`: `null` is `None`. */
  function GetItem(storage: map<string, string>, key: string): (v: Option<string>)
    ensures v.Some? <==> key in storage
    ensures v.Some? ==> v.value == storage[key]
  {
    if key in storage then Some(storage[key]) else None
  }

  /** The branch a stored id names: a non-empty string whose `parseInt` equals a branch's id. */
  function StoredBranch(branches: seq<MockApi.ApiBranch>, stored: Option<string>): (r: Option<MockApi.ApiBranch>)
    ensures r.Some? ==> r.value in branches && stored.Some? && stored.value != "" && ParseInt(stored.value) == Some(r.value.id)
    ensures r.None? <==> (stored.None? || stored.value == "" || ParseInt(stored.value).None?
                          || forall i :: 0 <= i < |branches| ==> branches[i].id != ParseInt(stored.value).value)
  {
    if stored.Some? && stored.value != "" && ParseInt(stored.value).Some? then
      MockApi.FindBranch(branches, ParseInt(stored.value).value)
    else None
  }

  /** The active branch chosen and the id written back to storage, if any. */
  datatype Selection = Selection(active: Option<MockApi.ApiBranch>, written: Option<string>)

  /**
   The active-branch choice of `fetchUserData`. A branch named by the stored id
   is taken as it is. Otherwise the first branch is taken and its id stored;
   with no branches, reading `branchesData[0].id` throws (or the branch
   condition fails), the error is caught, and nothing is active or written.
   */
  function SelectActiveBranch(branches: seq<MockApi.ApiBranch>, stored: Option<string>): (s: Selection)
    ensures s.active.Some? ==> s.active.value in branches
    ensures s.written.Some? ==> s.active.Some? && s.written.value == IntToString(s.active.value.id)
    ensures s.active.None? <==> |branches| == 0
    ensures StoredBranch(branches, stored).Some? ==> s == Selection(StoredBranch(branches, stored), None)
    ensures StoredBranch(branches, stored).None? && |branches| > 0 ==>
      s == Selection(Some(branches[0]), Some(IntToString(branches[0].id)))
    ensures |branches| == 0 ==> s.written.None?
  {
    if stored.Some? && stored.value != "" then
      var wanted := ParseInt(stored.value);
      var found := if wanted.Some? then MockApi.FindBranch(branches, wanted.value) else None;
      if found.Some? then Selection(found, None)
      else if |branches| > 0 then Selection(Some(branches[0]), Some(IntToString(branches[0].id)))
      else Selection(None, None)
    else if |branches| > 0 then Selection(Some(branches[0]), Some(IntToString(branches[0].id)))
    else Selection(None, None)
  }

  /** Storage after a selection: the written id, if any, under `activeBranchId`. */
  function Store(storage: map<string, string>, s: Selection): (r: map<string, string>)
    ensures s.written.None? ==> r == storage
    ensures s.written.Some? ==> ActiveBranchKey in r && r[ActiveBranchKey] == s.written.value
    ensures forall k :: k != ActiveBranchKey ==> (k in r <==> k in storage) && (k in r ==> r[k] == storage[k])
  {
    if s.written.Some? then storage[ActiveBranchKey := s.written.value] else storage
  }

  ghost predicate DistinctBranchIds(branches: seq<MockApi.ApiBranch>) {
    forall j, k :: 0 <= j < k < |branches| ==> branches[j].id != branches[k].id
  }

  /** The branch picked by the stored id, when branch ids are unique, is the branch with that id. */
  lemma StoredIdSelectsItsBranch(branches: seq<MockApi.ApiBranch>, b: MockApi.ApiBranch)
    requires DistinctBranchIds(branches) && b in branches
    ensures SelectActiveBranch(branches, Some(IntToString(b.id))) == Selection(Some(b), None)
  {
    ParseIntToString(b.id);
    assert IntToString(b.id) != "" by {
      if b.id < 0 {
        assert IntToString(b.id)[0] == '-';
      } else {
        assert |NatToString(b.id)| >= 1;
      }
    }
    var f := MockApi.FindBranch(branches, b.id);
    var j :| 0 <= j < |branches| && branches[j] == b;
    var k :| 0 <= k < |branches| && branches[k] == f.value;
    assert j == k;
  }

  /** Reloading after a selection keeps the branch it chose, and writes nothing more. */
  lemma SelectionStableOnReload(branches: seq<MockApi.ApiBranch>, stored: Option<string>)
    requires DistinctBranchIds(branches)
    ensures var s := SelectActiveBranch(branches, stored);
      s.active.Some? ==> SelectActiveBranch(branches, Some(IntToString(s.active.value.id))) == Selection(s.active, None)
  {
    var s := SelectActiveBranch(branches, stored);
    if s.active.Some? {
      StoredIdSelectsItsBranch(branches, s.active.value);
    }
  }

  /** The top bar's state. `user` is `None` while nothing is shown. */
  datatype TopBarState = TopBarState(
    user: Option<MockApi.PublicUser>,
    branches: seq<MockApi.ApiBranch>,
    activeBranch: Option<MockApi.ApiBranch>,
    dropdownOpen: bool,
    storage: map<string, string>)

  /**
   The mount effect. A failing `getCurrentUser` is caught and leaves the
   initial state. The branch request cannot fail: it looks up the id of a user
   that was just found.
   */
  function FetchUserData(users: seq<MockApi.User>, allBranches: seq<MockApi.ApiBranch>, storage: map<string, string>): (t: TopBarState)
    ensures !t.dropdownOpen
    ensures t.user.None? <==> MockApi.GetCurrentUser(users, storage).Err?
    ensures t.user.None? ==> t == TopBarState(None, [], None, false, storage)
    ensures t.user.Some? ==>
      && t.user.value == MockApi.GetCurrentUser(users, storage).value
      && t.branches == MockApi.GetBranchesByUserId(users, allBranches, t.user.value.id).value
      && var s := SelectActiveBranch(t.branches, GetItem(storage, ActiveBranchKey));
        t.activeBranch == s.active && t.storage == Store(storage, s)
  {
    match MockApi.GetCurrentUser(users, storage)
    case Err(_) => TopBarState(None, [], None, false, storage)
    case Ok(u) =>
      match MockApi.GetBranchesByUserId(users, allBranches, u.id)
      case Err(_) => assert false; TopBarState(Some(u), [], None, false, storage)
      case Ok(bs) =>
        var s := SelectActiveBranch(bs, GetItem(storage, ActiveBranchKey));
        TopBarState(Some(u), bs, s.active, false, Store(storage, s))
  }

  /** `handleBranchChange(branch)`; the page reload that follows is not modelled. */
  function HandleBranchChange(t: TopBarState, b: MockApi.ApiBranch): (r: TopBarState)
    ensures r.activeBranch == Some(b) && !r.dropdownOpen
    ensures ActiveBranchKey in r.storage && ParseInt(r.storage[ActiveBranchKey]) == Some(b.id)
    ensures r.user == t.user && r.branches == t.branches
    ensures forall k :: k != ActiveBranchKey ==>
      (k in r.storage <==> k in t.storage) && (k in r.storage ==> r.storage[k] == t.storage[k])
  {
    ParseIntToString(b.id);
    t.(activeBranch := Some(b), dropdownOpen := false, storage := t.storage[ActiveBranchKey := IntToString(b.id)])
  }

  /** A branch picked from the dropdown is still the active one after the reload. */
  lemma ChangeBranchSurvivesReload(t: TopBarState, b: MockApi.ApiBranch)
    requires DistinctBranchIds(t.branches) && b in t.branches
    ensures var r := HandleBranchChange(t, b);
      SelectActiveBranch(t.branches, GetItem(r.storage, ActiveBranchKey)).active == Some(b)
  {
    StoredIdSelectsItsBranch(t.branches, b);
  }

  /** `handleLogout`: the API's logout, then the token and the active branch id are removed. */
  function HandleLogout(storage: map<string, string>): (r: map<string, string>)
    ensures "token" !in r && ActiveBranchKey !in r
    ensures forall k :: k != "token" && k != ActiveBranchKey ==>
      (k in r <==> k in storage) && (k in r ==> r[k] == storage[k])
  {
    MockApi.Logout(storage) - {"token", ActiveBranchKey}
  }

  /** After logging out, the next mount shows nothing. */
  lemma LogoutThenNothingShown(users: seq<MockApi.User>, allBranches: seq<MockApi.ApiBranch>, storage: map<string, string>)
    ensures FetchUserData(users, allBranches, HandleLogout(storage)).user.None?
  {
  }

  /** The Change Branch button exists only for a user with more than one branch. */
  predicate DropdownVisible(t: TopBarState) {
    |t.branches| > 1
  }

  /** The Change Branch button flips the dropdown. */
  function ToggleDropdown(t: TopBarState): (r: TopBarState)
    ensures r.dropdownOpen == !t.dropdownOpen
    ensures r == t.(dropdownOpen := r.dropdownOpen)
  {
    t.(dropdownOpen := !t.dropdownOpen)
  }

  /** A mouse-down outside the dropdown closes it. */
  function ClickOutside(t: TopBarState, inside: bool): (r: TopBarState)
    ensures inside ==> r == t
    ensures !inside ==> !r.dropdownOpen && r == t.(dropdownOpen := false)
  {
    if inside then t else t.(dropdownOpen := false)
  }

  /** On the seed data the second user has one branch, so never sees the dropdown; Jakarta is active. */
  lemma SeedUserHasNoDropdown(storage: map<string, string>, now: int)
    requires storage == map["token" := MockApi.Token(2, now)]
    ensures var t := FetchUserData(MockApi.SeedUsers, MockApi.SeedBranches, storage);
      t.user.Some? && !DropdownVisible(t) && t.activeBranch == Some(MockApi.SeedBranches[0])
  {
    MockApi.TokenRoundTrip(2, now);
    assert storage["token"] != "" by {
      assert |MockApi.Token(2, now)| >= |"dummy-token-"|;
    }
    assert MockApi.SeedUsers[1].id == 2 && MockApi.SeedUsers[0].id != 2;
    MockApi.SeedUserBranches();
  }
}

=== FILE: wrappers.dfy ===
/**
 Optional values and results with an error message, standing for JavaScript's
 `null`/`undefined` and for a thrown `Error(message)`.
 */
module Wrappers {

  datatype Option<+T> = None | Some(value: T) {

    /** Mirrors JavaScript's `x ?? fallback`. */
    function GetOr(fallback: T): T {
      match this
      case Some(v) => v
      case None => fallback
    }
  }

  /** The outcome of a call that either returns a value or throws `new Error(message)`. */
  datatype Result<+T> = Ok(value: T) | Err(message: string)
}
